=== FILE: README.md ===
# beyond_validator, modelled in Dafny

beyond_validator is an HTTP conformance checker for a property-management API. It has two
parts. `DynamicAPIClient` turns each API call into a request, and the response's status code
and body into a decoded value or a domain error. The validator runs thirteen scripted
scenarios against the client. Each scenario that completes prints at most one ✅ or ❌
verdict, and after a failed schema check one line per violation as well. A scenario that
lets an exception escape ends the run.

This project models both parts as pure functions. It proves what each client method returns
or raises for every status code and body, and what each scenario prints or lets escape for
every answer of the client and every schema verdict. It then composes the two: for example,
a server that answers every request with an error code ends the run in its first scenario.

- `Exceptions` (exceptions.dfy) lists the faults: the domain errors of helpers/exceptions.py
  and the Python built-in errors the code raises along the way. `Outcome<T>` is a value or
  the fault raised.
- `Json` (json.dfy) models decoded JSON values. It gives Python's `len`, `x[0]`, `x["id"]`
  and `str` on them, with the TypeError, IndexError and KeyError cases.
- `Dates` and `Decimal` (dates.dfy, decimal.dfy) model `datetime.date`: the proleptic
  Gregorian calendar from year 1 to 9999, `+ relativedelta(days=n)` with its OverflowError,
  and `isoformat()`.
- `Routes` (routes.dfy) models the route templates and `str.format` on them.
- `Client` (client.dfy) models the client:
  - the header merge, URL and query of `_request`;
  - the layered status dispatch (the allowed-set check, then `_request`'s generic checks,
    then each method's own 404 and 400 checks);
  - `Call`, which sends one request through a `Transport` parameter standing for
    `requests.request`.
- `Report` (report.dfy) models `_log_report_for_20x` over an abstract list of violations,
  sorted by their `str`.
- `Validator` (validator.py's scenarios) models each `_validate_*` function as a map from
  what the client returns or raises to the lines printed. It also models the `dummy_rates`
  batch and `run`, which stops at the first exception a scenario lets escape.
- `ScenarioFacts` (scenario_facts.dfy) composes the scenarios with the client to make
  end-to-end statements.

The scenarios see the client through an `Env`: the client's methods with the configured key,
the same methods with the invalid key, the schema evaluator and today's date. `Connect`
builds that `Env` from a real `Call` and a transport. `BehavesLikeClient` names the facts
about it that some lemmas need.

Behaviour of the code that the model keeps, and that a reader of the code might not expect:

- A status code outside `(200, 400, 500, 201, 404, 401)` does not raise
  `StatusCodeException`. The exception's message reads `self._integration_name`, which is
  never set (helpers/client.py:46), so an AttributeError is raised instead.
- 403 never reaches its InvalidCredentials branch, because 403 is not an allowed code.
- `post_rates` never raises PostingRatesError, because `_request` raises BadRequest on 400
  first.
- A negative scenario whose call returns normally prints nothing, neither ✅ nor ❌.
- An empty listing-id list is not handled gracefully. Three scenarios index it outside any
  `try`. The two reservation scenarios catch the IndexError in a handler that reads the
  still-unbound `listing_id`, which raises UnboundLocalError. Either way the exception
  escapes and ends `run`.
- The calendar scenario's `except StatusCodeException as e` handler reads `e.status_code`.
  The exception class defines nothing (helpers/exceptions.py:35-36), so were the handler ever
  reached it would raise AttributeError instead of printing its line. No client method
  raises StatusCodeException, so with a real client the handler never runs.
- The detail lines are ordered by `str(error)` (validator.py:27), the evaluator's full text
  for the error. They are not ordered by the JSON path that each line shows first.

## Model

| member | source | states |
|---|---|---|
| Client.MergeHeaders | helpers/client.py:31-39 | The merged headers have the caller's keys plus the three fixed ones. `x-api-key`, `Accept` and `Accept-Encoding` carry the fixed values, overriding the caller. Every other caller header is unchanged. |
| Client.RoutesRenderDocumentedPaths | helpers/client.py:15-22 | Each method's route template, formatted with that method's arguments, succeeds and equals the documented path with the id written in. |
| Client.BuildRequest | helpers/client.py:30-41 | The request is built in every case, and: <br>- the URL is the base URL followed by the documented path; <br>- only `post_rates` uses POST; <br>- the headers are exactly `x-api-key` with the key, `Accept: application/json` and `Accept-Encoding: gzip, deflate`; <br>- the timeout is 300; <br>- the query holds no key but `checkinStartDate`, which is there exactly when a date is given, and then as its ISO string; <br>- a JSON payload is sent exactly for `post_rates`, and it is the list of rates passed in. |
| Client.CalendarReadAndWriteShareUrl | helpers/client.py:97-111 | Reading and posting a listing's calendar use the same URL, with GET and POST respectively. |
| Client.CheckStatus | helpers/client.py:42-64 | `_request` returns only for 200, 201 and 404. It raises AttributeError exactly for codes outside the allowed set, and InvalidCredentials exactly for 401. |
| Client.Dispatch | helpers/client.py:42-147 | The full status table per method: <br>- a code outside the allowed set raises AttributeError; <br>- 500 raises InternalServerError, 400 BadRequest and 401 InvalidCredentials on every method; <br>- 404 raises PropertyNotFound or ReservationNotFound on the methods that name a resource, and decodes the body on the other two; <br>- 200 and 201 decode the body, except on `post_rates`, which returns `[]`. <br>No method ever raises StatusCodeException or PostingRatesError. |
| Client.Receive | helpers/client.py:41-66 | A timeout raises exactly TransportFault. Otherwise the response is dispatched. Only the dispatch faults can be raised, and a successful `post_rates` yields `[]`. |
| Client.Call | helpers/client.py:68-147 | A method call raises only dispatch or transport faults. It raises the transport fault exactly when the request times out, and otherwise behaves as the dispatch of the response to the built request. A successful `post_rates` yields `[]`. |
| Client.ForbiddenIsNeverInvalidCredentials | helpers/client.py:23-64 | A 403 raises AttributeError from the allowed-set check on every method, never InvalidCredentials. |
| Client.PostingRatesErrorUnreachable | helpers/client.py:55-56 | `post_rates` never raises PostingRatesError, and a 400 on it raises BadRequest. |
| Client.NotFoundNamesTheResource | helpers/client.py:86-147 | A 404 on a listing raises PropertyNotFound, and on a reservation ReservationNotFound. |
| Routes.Render | helpers/client.py:88 | `str.format` on a template succeeds exactly when every field it names has an argument. |
| Routes.RenderConcat | helpers/client.py:99 | Formatting a concatenation of templates formats each part in turn. |
| Routes.RenderIgnoresExtraArgs | helpers/client.py:125 | Only the arguments a template names affect the formatted path. |
| Dates.NextDay | validator.py:125 | The next day exists exactly when the date is not `date.max`, and its ordinal is one more. Otherwise OverflowError is raised. |
| Dates.AddDays | validator.py:125-139 | `date + relativedelta(days=n)` succeeds exactly when the result does not pass `date.max`, and its ordinal is `n` more. Otherwise OverflowError is raised. |
| Dates.IsoFormat | helpers/client.py:128 | The ISO string has ten characters: four, two and two digits separated by dashes. |
| Dates.IsoFormatReadsBack | validator.py:125 | The year, month and day fields of the ISO string read back as the date's year, month and day. |
| Decimal.PadInjective | helpers/client.py:128 | Two numbers that fit the width zero-pad to different strings. |
| Dates.IsoFormatInjective | helpers/client.py:128 | Distinct dates have distinct ISO strings. |
| Json.Len | validator.py:201 | `len` raises TypeError exactly on scalars. It is 0 exactly for the empty list, string and object. |
| Json.Item0 | validator.py:75 | `x[0]` raises IndexError exactly on an empty list or string. It succeeds exactly on a non-empty list or string, giving the first element or character. Otherwise it raises KeyError on an object and TypeError on a scalar. |
| Json.Lookup | validator.py:207 | `x["id"]` succeeds exactly on an object with that key, and yields the value of the last member with that key. On any other object it raises KeyError, and on anything else TypeError. |
| Json.LastValue | validator.py:207 | A key present among an object's members yields the value of its last occurrence, the one a decoder keeps. A missing key raises KeyError. |
| Json.LastIndex | validator.py:78 | For a key of an object, there is a last member with that key, and its value is the one `x[key]` yields. |
| Json.Str | validator.py:75-78 | `str` of a string is the string itself, and of a number its decimal text. `str` of an object is `{`, its entries, `}`, and its entries are exactly one per distinct key of the object. |
| Json.ReprDictPrintsEntries | validator.py:78 | An object's members print as the list of entries of the dict they decode to. |
| Json.DictEntriesKeys | validator.py:78 | The decoded dict has exactly the keys of the members not already seen. |
| Json.DictEntriesValues | validator.py:78 | Each entry of the decoded dict holds the value of the last member with its key. |
| Json.DictEntriesOrder | validator.py:78 | The decoded dict's entries are in the order of each key's first occurrence among the members. |
| Json.StrOfObject | validator.py:75-78 | `str` of an object prints one entry per distinct key, in the order of first occurrence, each with the value of the key's last member. |
| Json.StrShowsRepeatedKeyOnce | validator.py:78 | `str` of an object with a repeated key shows the key once, in its first position, with its last value: `{'a': 2}` for the members `a: 1, a: 2`. |
| Report.SortByText | validator.py:27 | `sorted(errors, key=str)` is a permutation of the violations, ordered by their text. |
| Report.InsertSorted | validator.py:27 | Inserting a violation into a sorted list keeps it sorted. |
| Report.LogReport | validator.py:22-36 | The report has one verdict line followed by one detail line per violation. The verdict passes exactly when there is no violation. The detail lines are a permutation of the violations, sorted by their text. |
| Validator.DummyRates | validator.py:122-147 | The batch exists exactly when today + 3 days does not pass `date.max`; otherwise OverflowError is raised. It has three rates dated today + 1, + 2 and + 3, and only the third has extra-guest pricing. |
| Validator.RateJsonKeys | validator.py:123-147 | Each posted rate object carries its date as an ISO string. It has `extraGuests` and `extraGuestFee` exactly when the rate has extra-guest pricing. |
| Validator.ExpectFault | validator.py:84-90 | A negative scenario prints ✅ exactly when the expected fault is raised, ❌ exactly when another fault is raised, and nothing exactly when the call returns. |
| Validator.ValidateAccountReturns401 | validator.py:49-60 | The 401 scenario always completes: <br>- it prints ✅ exactly when the invalid-key call raises InvalidCredentials; <br>- any other exception is echoed and followed by ❌; <br>- it prints nothing exactly when the call returns. |
| Validator.CaughtBeforeBinding | validator.py:169-184 | A fault raised before `listing_id` is bound always escapes the reservation scenarios. IndexError and InvalidCredentials become UnboundLocalError. Every other fault escapes unchanged. |
| Validator.RunAll | validator.py:237-254 | The run ends without an uncaught exception exactly when every scenario completes. The exception that ends a run is one a scenario raised. |
| Validator.Run | validator.py:237-254 | `run` with a key and base URL completes exactly when each of its thirteen scenarios completes against that client. Otherwise it ends with an exception that one of them raised. |
| ScenarioFacts.ErrorStatusEndsRunAtFirstScenario | validator.py:237-254 | With a server answering every request with a code other than 200, 201 and 404, `run` prints nothing. It ends in the first scenario with the fault of that status: AttributeError, InternalServerError, BadRequest or InvalidCredentials. |
| ScenarioFacts.RunCallsAccountScenariosFirst | validator.py:242-244 | `run` evaluates thirteen scenarios, and the first three are the two account checks and the listing-id check, in that order. |
| ScenarioFacts.RunCallsListingAndCalendarScenariosNext | validator.py:245-248 | Positions four to seven are the listing 200 and 404 checks, then the calendar 200 and 404 checks. |
| ScenarioFacts.RunCallsReservationAndRateScenariosLast | validator.py:249-254 | Positions eight to thirteen are the reservation-list, single-reservation and rate-posting checks, each success check before its 404 check. |
| ScenarioFacts.RunAllConcat | validator.py:242-254 | Running two lists of scenarios in turn is running the first, then the second only if the first let nothing escape. |
| ScenarioFacts.RunStopsAtFirstFault | validator.py:242-254 | The first scenario that raises ends the run with its fault. Only the lines printed before it appear. |
| ScenarioFacts.NegativeScenarioVerdicts | validator.py:84-226 | Each negative scenario passes exactly when its call raises the not-found fault of its resource: PropertyNotFound, or ReservationNotFound for the reservation detail. The detail scenario fails exactly on any other fault, and listing and posting print nothing exactly when the call returns. |
| ScenarioFacts.ConnectBehavesLikeClient | helpers/client.py:30-147 | A real client raises only dispatch or transport faults with either key, and a successful `post_rates` returns `[]`. |
| ScenarioFacts.NotFoundRaises | helpers/client.py:86-147 | Against a server that answers 404, every method naming a resource raises its not-found fault. |
| ScenarioFacts.ErrorStatusRaises | helpers/client.py:42-64 | Against a server that answers any code other than 200, 201 and 404, every method raises, and never a not-found fault. |
| ScenarioFacts.NotFoundPassesEveryNegativeScenario | validator.py:84-226 | With a server answering 404, all five negative scenarios, each called on its own, print ✅, whatever the bodies. |
| ScenarioFacts.ErrorStatusFailsEveryNegativeScenario | validator.py:84-226 | With a server answering any code other than 200, 201 and 404 (400, 401, 500 and every disallowed code), all five negative scenarios, each called on its own, print ❌. In a full run they are not reached. |
| ScenarioFacts.UnauthorizedScenarioPassesOnlyOn401 | validator.py:49-60 | The 401 scenario sends the key "invalid-api-key" to the same base URL's `/account`. It passes exactly when that request is answered 401. |
| ScenarioFacts.AccountAndListingIdReports | validator.py:39-70 | The account and listing-id scenarios let their call's fault escape. Otherwise they report on the payload under their schema. |
| ScenarioFacts.ListingIdsFaultEscapes | validator.py:63-199 | A fault from `get_listing_ids` escapes all six scenarios that read the ids, because each calls it outside any `try`. |
| ScenarioFacts.UnindexableListingIdsEscape | validator.py:73-215 | When `[0]` fails on the ids (IndexError, KeyError or TypeError): <br>- the listing, calendar and post-rates scenarios raise that fault; <br>- the reservation scenarios raise it through their handlers, as UnboundLocalError when a handler catches it. |
| ScenarioFacts.FirstListingReports | validator.py:73-107 | Once the first listing id is read: <br>- the listing scenario reports on its read, and lets the read's fault escape; <br>- the calendar scenario raises AttributeError for a StatusCodeException, since its handler reads `e.status_code`, and otherwise reports on its read or lets the fault escape. |
| ScenarioFacts.RatePostReports | validator.py:119-153 | Once the first listing id is read, the rate scenario raises OverflowError when the batch cannot be dated. Otherwise it posts the batch and reports on the answer, letting the post's fault escape. |
| ScenarioFacts.ReservationListReports | validator.py:167-184 | Once the first listing id is read: <br>- IndexError from the list read prints the "does not return a list" line; <br>- InvalidCredentials prints the credentials line; <br>- any other fault escapes; <br>- a list is reported on. |
| ScenarioFacts.ReservationLookupReports | validator.py:196-217 | Once the first listing id is read: <br>- IndexError from the lookup prints the "does not return a list" line; <br>- InvalidCredentials prints the "Returns a 401" line; <br>- any other fault escapes; <br>- a completed lookup's lines are printed. |
| ScenarioFacts.ReservationDetailOnTheList | validator.py:200-205 | In the lookup: <br>- the list read's fault escapes; <br>- `len` of a scalar raises TypeError; <br>- an empty list, string or object prints the no-reservation line. |
| ScenarioFacts.ReservationDetailOnTheFirstReservation | validator.py:207-213 | For a non-empty answer: <br>- `[0]` can fail only on an object, with KeyError; <br>- a failing `["id"]` escapes; <br>- otherwise the first reservation's record is read and reported on. |
| ScenarioFacts.EmptyListingIdsEscape | validator.py:73-215 | With an empty listing-id list: <br>- the listing, calendar and post-rates scenarios raise IndexError; <br>- the two reservation scenarios raise UnboundLocalError. |
| ScenarioFacts.EmptyListingIdsEndRun | validator.py:237-254 | With an empty listing-id list, when the account scenario completes, a run prints the first three scenarios' lines and ends with the listing scenario's IndexError. |
| ScenarioFacts.EmptyReservationListSkipsDetail | validator.py:196-205 | An empty reservation list prints exactly one ❌ line, whatever `get_reservation` would answer. |
| ScenarioFacts.PostedRatesReportEmptyList | validator.py:148-153 | With a real client, when posting the batch succeeds, the report checks `[]` against the calendar schema, whatever the server's body. |
| ScenarioFacts.CalendarStatusHandlerNeverRuns | validator.py:93-107 | With a real client and the first listing id read, the calendar scenario is exactly the report on its calendar read: the StatusCodeException handler never runs, because nothing raises StatusCodeException. |
| ScenarioFacts.NotAListHandlersNeverRun | validator.py:170-215 | With a real client, no IndexError can reach the reservation scenarios' handlers once `listing_id` is bound. |
| ScenarioFacts.ListNotAListLineNeverPrinted | validator.py:167-179 | With a real client, the reservation-list scenario never prints its "does not return a list" line. |
| ScenarioFacts.DetailNotAListLineNeverPrinted | validator.py:196-215 | With a real client, the reservation-detail scenario never prints its "does not return a list" line. |

## Left out

- The HTTP transport is the `Transport` parameter: a function from the request to a response or a timeout. Gzip, connection handling and retries are not modelled. The model assumes a server that answers the same request the same way within a run.
- JSON decoding is not modelled: a body is a decoded value, or absent when it is not JSON. Floating-point numbers are not modelled; numbers are integers.
- The JSON Schema evaluation is the `SchemaChecker` parameter, an oracle that returns the violations. The schema literals in schemas/ are not modelled.
- Report.LogReport: the ✅ and ❌ marks, the context text and the detail text are tags, not printed strings. `print`, `_pre_work`'s logging setup and exception message text are not modelled. An echoed exception is shown by its fault only.
- Report.SortByText: does not state that `sorted` is stable. Two violations whose texts compare equal are ordered, but not necessarily in their original order.
- Json.Str: `repr` of a string inside a list or object is the string between single quotes. Python escapes backslashes, control characters such as a newline, and non-printable characters, and switches to double quotes for a string that contains a single quote; the model does none of this. It changes the URL and the report context only for a listing or reservation id that is not a string and holds such characters.
- Dates.IsoFormat: `strftime("%Y-%m-%d")` in `get_reservations_by_listing_id` is modelled as `isoformat()`. The two differ only for years below 1000 on some platforms.
- `datetime.date.today()` is the `today` field of the environment.
- helpers/datehelpers.py is not part of this model; nothing in the core calls it.
- The `AuthenticationError` class of helpers/exceptions.py is not modelled; nothing raises it.
- The module-level call `run(BASE_URL, API_KEY)` is not modelled.
- Client.MergeHeaders: `headers.update` in `_request` also changes the caller's dictionary in place. The model returns the merged map and does not model that aliasing. No client method passes headers, so every request uses an empty caller map.

=== FILE: client.dfy ===
/**
 DynamicAPIClient (helpers/client.py): how each client method builds its request and how
 it turns the HTTP status and body of the response into a decoded value or a fault. The
 HTTP library itself is the `Transport` parameter of `Call`.
 */
module Client {
  import opened Wrappers
  import opened Exceptions
  import opened Json
  import opened Routes
  import Dates

  /** The status codes `_request` lets through its first check, in the source's order. */
  const AllowedStatusCodes: seq<int> := [200, 400, 500, 201, 404, 401]

  /** Seconds every request may take before the HTTP library gives up. */
  const RequestTimeout := 300

  const ApiKeyHeader := "x-api-key"
  const AcceptHeader := "Accept"
  const AcceptEncodingHeader := "Accept-Encoding"
  const CheckinStartDateParam := "checkinStartDate"

  /** The two constructor arguments; neither is checked. */
  datatype Config = Config(apiKey: string, baseUrl: string)

  datatype Verb = Get | Post

  datatype Request = Request(
    verb: Verb,
    url: string,
    headers: map<string, string>,
    params: map<string, string>,
    json: Option<Json>,
    timeout: int)

  /** A response as the client sees it; `body` is None when the body is not valid JSON. */
  datatype Response = Response(status: int, body: Option<Json>)

  /** What the HTTP library does with a request: answer it, or raise (timeout, connection error). */
  datatype Delivery = Delivered(response: Response) | TimedOut

  type Transport = Request -> Delivery

  /** The public methods of the client, with their arguments. */
  datatype Endpoint =
    | AccountInformation
    | ListingIds
    | ListingById(listingId: string)
    | CalendarByListingId(listingId: string)
    | PostRates(listingId: string, rates: seq<Json>)
    | ReservationsByListingId(listingId: string, checkinStartDate: Option<Dates.CalendarDate>)
    | ReservationById(reservationId: string)

  // ---------------------------------------------------------------------------
  // Request construction

  function FixedHeaders(apiKey: string): map<string, string> {
    map[ApiKeyHeader := apiKey, AcceptHeader := "application/json", AcceptEncodingHeader := "gzip, deflate"]
  }

  /**
   The header merge of `_request`: the caller's headers (an empty dict counts as none)
   updated with the three fixed ones, which therefore always win.
   */
  function MergeHeaders(caller: map<string, string>, apiKey: string): (h: map<string, string>)
    ensures h.Keys == caller.Keys + {ApiKeyHeader, AcceptHeader, AcceptEncodingHeader}
    ensures h[ApiKeyHeader] == apiKey
    ensures h[AcceptHeader] == "application/json"
    ensures h[AcceptEncodingHeader] == "gzip, deflate"
    ensures forall k :: k in caller && k !in {ApiKeyHeader, AcceptHeader, AcceptEncodingHeader} ==> h[k] == caller[k]
  {
    if |caller| > 0 then caller + FixedHeaders(apiKey) else FixedHeaders(apiKey)
  }

  function Route(ep: Endpoint): Template {
    match ep
    case AccountInformation => PathAccount
    case ListingIds => PathListings
    case ListingById(_) => PathListing
    case CalendarByListingId(_) => PathCalendar
    case PostRates(_, _) => PathCalendar
    case ReservationsByListingId(_, _) => PathListingReservation
    case ReservationById(_) => PathReservation
  }

  /** The keyword arguments each method passes to `format`. */
  function FormatArgs(ep: Endpoint): map<string, string> {
    match ep
    case AccountInformation => map[]
    case ListingIds => map[]
    case ListingById(id) => map["listing_id" := id]
    case CalendarByListingId(id) => map["listing_id" := id]
    case PostRates(id, _) => map["listing_id" := id]
    case ReservationsByListingId(id, _) => map["listing_id" := id]
    case ReservationById(id) => map["reservation_id" := id]
  }

  function Params(ep: Endpoint): map<string, string> {
    match ep
    case ReservationsByListingId(_, Some(date)) => map[CheckinStartDateParam := Dates.IsoFormat(date)]
    case _ => map[]
  }

  function Payload(ep: Endpoint): Option<Json> {
    match ep
    case PostRates(_, rates) => Some(JArr(rates))
    case _ => None
  }

  /** The paths of the API description, written out: the reference the templates must agree with. */
  function DocumentedPath(ep: Endpoint): string {
    match ep
    case AccountInformation => "/account"
    case ListingIds => "/listings"
    case ListingById(id) => "/listings/" + id
    case CalendarByListingId(id) => "/listings/" + id + "/calendar"
    case PostRates(id, _) => "/listings/" + id + "/calendar"
    case ReservationsByListingId(id, _) => "/listings/" + id + "/reservations"
    case ReservationById(id) => "/reservations/" + id
  }

  /** Each method's template, formatted with its arguments, is the documented path. */
  lemma RoutesRenderDocumentedPaths(ep: Endpoint)
    ensures Render(Route(ep), FormatArgs(ep)) == Some(DocumentedPath(ep))
  {
    var t, args := Route(ep), FormatArgs(ep);
    FieldsRender(t, args);
    assert Render(t, args).Some?;
    if |t| == 2 {
      RenderConcat([t[0]], [t[1]], args);
      assert t == [t[0]] + [t[1]];
    } else if |t| == 3 {
      RenderConcat([t[0]], [t[1]], args);
      RenderConcat([t[0]] + [t[1]], [t[2]], args);
      assert t == [t[0]] + [t[1]] + [t[2]];
    }
  }

  /** The route table needs nothing the methods do not supply, and each piece renders alone. */
  lemma FieldsRender(t: Template, args: map<string, string>)
    requires FieldNames(t) <= args.Keys
    ensures forall i :: 0 <= i < |t| ==> Render([t[i]], args) == PieceText(t[i], args) && PieceText(t[i], args).Some?
  {
    forall i | 0 <= i < |t|
      ensures Render([t[i]], args) == PieceText(t[i], args) && PieceText(t[i], args).Some?
    {
      assert [t[i]][1..] == [];
      assert t[i] in t;
      assert PieceText(t[i], args).value + "" == PieceText(t[i], args).value;
    }
  }

  /**
   The request a method hands to the HTTP library: a missing format field would raise
   KeyError before any request is sent, but every method supplies its route's field.
   */
  function BuildRequest(c: Config, ep: Endpoint): (r: Outcome<Request>)
    ensures r.Value?
    ensures r.value.url == c.baseUrl + DocumentedPath(ep)
    ensures r.value.verb == (if ep.PostRates? then Post else Get)
    ensures r.value.headers == map[ApiKeyHeader := c.apiKey, AcceptHeader := "application/json",
                                   AcceptEncodingHeader := "gzip, deflate"]
    ensures r.value.timeout == RequestTimeout
    ensures CheckinStartDateParam in r.value.params
        <==> ep.ReservationsByListingId? && ep.checkinStartDate.Some?
    ensures r.value.params.Keys <= {CheckinStartDateParam}
    ensures CheckinStartDateParam in r.value.params
        ==> r.value.params[CheckinStartDateParam] == Dates.IsoFormat(ep.checkinStartDate.value)
    ensures r.value.json.Some? <==> ep.PostRates?
    ensures ep.PostRates? ==> r.value.json == Some(JArr(ep.rates))
  {
    RoutesRenderDocumentedPaths(ep);
    match Render(Route(ep), FormatArgs(ep))
    case None => Raised(KeyFault)
    case Some(path) =>
      Value(Request(if ep.PostRates? then Post else Get, c.baseUrl + path,
                    MergeHeaders(map[], c.apiKey), Params(ep), Payload(ep), RequestTimeout))
  }

  // ---------------------------------------------------------------------------
  // Response dispatch

  /**
   The status checks of `_request`, in order. A code outside the allowed set reaches
   the StatusCodeException whose message reads `self._integration_name`, an attribute
   the class never sets, so AttributeError is raised while the message is built.
   */
  function CheckStatus(status: int): (r: Outcome<()>)
    ensures r.Value? <==> status in {200, 201, 404}
    ensures status !in AllowedStatusCodes <==> r == Raised(AttributeFault)
    ensures r == Raised(InvalidCredentials) <==> status == 401
  {
    if status !in AllowedStatusCodes then Raised(AttributeFault)
    else if status == 500 then Raised(InternalServerError)
    else if status == 400 then Raised(BadRequest)
    else if status == 401 then Raised(InvalidCredentials)
    else if status == 403 then Raised(InvalidCredentials)
    else Value(())
  }

  /** `response.json()`. */
  function Decode(resp: Response): (r: Outcome<Json>)
    ensures r.Raised? <==> resp.body.None?
    ensures r.Raised? ==> r.fault == DecodeFault
    ensures r.Value? ==> r.value == resp.body.value
  {
    match resp.body
    case None => Raised(DecodeFault)
    case Some(j) => Value(j)
  }

  /** Everything a method can raise once a response has arrived. */
  const DispatchFaults: set<Fault> := {
    AttributeFault, InternalServerError, BadRequest, InvalidCredentials,
    PropertyNotFound, ReservationNotFound, DecodeFault
  }

  /** The 404 column of the status table: the resource methods raise, the others decode. */
  function NotFoundOutcome(ep: Endpoint, resp: Response): Outcome<Json> {
    match ep
    case AccountInformation => Decode(resp)
    case ListingIds => Decode(resp)
    case ReservationById(_) => Raised(ReservationNotFound)
    case _ => Raised(PropertyNotFound)
  }

  /**
   What a client method returns or raises for a response: the generic checks of
   `_request` first, then the method's own 404 and 400 checks, then the decoded body
   (or `[]` for `post_rates`). The contract is the whole status table per method.
   */
  function Dispatch(ep: Endpoint, resp: Response): (r: Outcome<Json>)
    ensures resp.status !in AllowedStatusCodes ==> r == Raised(AttributeFault)
    ensures resp.status == 500 ==> r == Raised(InternalServerError)
    ensures resp.status == 400 ==> r == Raised(BadRequest)
    ensures resp.status == 401 ==> r == Raised(InvalidCredentials)
    ensures resp.status == 404 ==> r == NotFoundOutcome(ep, resp)
    ensures resp.status in {200, 201} ==> r == (if ep.PostRates? then Value(JArr([])) else Decode(resp))
    ensures r.Raised? ==> !r.fault.StatusCodeException? && r.fault != PostingRatesError
    ensures r.Raised? ==> r.fault in DispatchFaults
    ensures ep.PostRates? && r.Value? ==> r.value == JArr([])
  {
    var _ :- CheckStatus(resp.status);
    match ep
    case AccountInformation => Decode(resp)
    case ListingIds => Decode(resp)
    case ListingById(_) => if resp.status == 404 then Raised(PropertyNotFound) else Decode(resp)
    case CalendarByListingId(_) => if resp.status == 404 then Raised(PropertyNotFound) else Decode(resp)
    case PostRates(_, _) =>
      if resp.status == 404 then Raised(PropertyNotFound)
      else if resp.status == 400 then Raised(PostingRatesError)
      else Value(JArr([]))
    case ReservationsByListingId(_, _) => if resp.status == 404 then Raised(PropertyNotFound) else Decode(resp)
    case ReservationById(_) => if resp.status == 404 then Raised(ReservationNotFound) else Decode(resp)
  }

  /** What a method makes of the transport's answer: a timeout raises, a response is dispatched. */
  function Receive(ep: Endpoint, delivery: Delivery): (r: Outcome<Json>)
    ensures r.Raised? ==> r.fault in DispatchFaults + {TransportFault}
    ensures delivery.TimedOut? <==> r == Raised(TransportFault)
    ensures ep.PostRates? && r.Value? ==> r.value == JArr([])
  {
    match delivery
    case TimedOut => Raised(TransportFault)
    case Delivered(resp) => Dispatch(ep, resp)
  }

  /** One client method call, end to end: build the request, send it, dispatch the answer. */
  function Call(c: Config, ep: Endpoint, transport: Transport): (r: Outcome<Json>)
    ensures r.Raised? ==> r.fault in DispatchFaults + {TransportFault}
    ensures ep.PostRates? && r.Value? ==> r.value == JArr([])
    ensures transport(BuildRequest(c, ep).value).TimedOut? <==> r == Raised(TransportFault)
    ensures transport(BuildRequest(c, ep).value).Delivered?
        ==> r == Dispatch(ep, transport(BuildRequest(c, ep).value).response)
  {
    Receive(ep, transport(BuildRequest(c, ep).value))
  }

  // ---------------------------------------------------------------------------
  // Consequences of the layering

  /** 403 is not an allowed code, so its InvalidCredentials branch in `_request` never runs. */
  lemma ForbiddenIsNeverInvalidCredentials(ep: Endpoint, body: Option<Json>)
    ensures Dispatch(ep, Response(403, body)) == Raised(AttributeFault)
  {
  }

  /** `_request` raises BadRequest on 400 before `post_rates` can raise PostingRatesError. */
  lemma PostingRatesErrorUnreachable(listingId: string, rates: seq<Json>, resp: Response)
    ensures Dispatch(PostRates(listingId, rates), resp) != Raised(PostingRatesError)
    ensures resp.status == 400 ==> Dispatch(PostRates(listingId, rates), resp) == Raised(BadRequest)
  {
  }

  /** The same 404 is told apart by resource: a listing is a property, a reservation is not. */
  lemma NotFoundNamesTheResource(id: string, body: Option<Json>)
    ensures Dispatch(ListingById(id), Response(404, body)) == Raised(PropertyNotFound)
    ensures Dispatch(ReservationById(id), Response(404, body)) == Raised(ReservationNotFound)
  {
  }

  /** Reading and writing a listing's calendar address the same URL with different verbs. */
  lemma CalendarReadAndWriteShareUrl(c: Config, listingId: string, rates: seq<Json>)
    ensures BuildRequest(c, CalendarByListingId(listingId)).value.url
         == BuildRequest(c, PostRates(listingId, rates)).value.url
    ensures BuildRequest(c, CalendarByListingId(listingId)).value.verb == Get
    ensures BuildRequest(c, PostRates(listingId, rates)).value.verb == Post
  {
  }
}

=== FILE: dates.dfy ===
/**
 Calendar dates as Python's `datetime.date` holds them (proleptic Gregorian, years 1 to
 9999), the day arithmetic `date + relativedelta(days=n)` the validator performs, and
 `date.isoformat()`. The ordinal (0001-01-01 is day 1) is the date as a plain day number.
 */
module Dates {
  import opened Exceptions
  import Decimal

  datatype Date = Date(year: int, month: int, day: int)

  const MaxYear := 9999

  predicate IsLeapYear(y: int) {
    y % 4 == 0 && (y % 100 != 0 || y % 400 == 0)
  }

  const MonthLengths: seq<int> := [31, 28, 31, 30, 31, 30, 31, 31, 30, 31, 30, 31]
  const DaysBeforeMonthTable: seq<int> := [0, 31, 59, 90, 120, 151, 181, 212, 243, 273, 304, 334]

  function DaysInMonth(y: int, m: int): int
    requires 1 <= m <= 12
  {
    if m == 2 && IsLeapYear(y) then 29 else MonthLengths[m - 1]
  }

  predicate Valid(d: Date) {
    && 1 <= d.year <= MaxYear
    && 1 <= d.month <= 12
    && 1 <= d.day <= DaysInMonth(d.year, d.month)
  }

  type CalendarDate = d: Date | Valid(d) witness Date(1, 1, 1)

  const MaxDate: CalendarDate := Date(MaxYear, 12, 31)

  function DaysInYear(y: int): int {
    if IsLeapYear(y) then 366 else 365
  }

  /** Days in the years 1 .. y-1. */
  function DaysBeforeYear(y: int): nat
    requires y >= 1
  {
    if y == 1 then 0 else DaysBeforeYear(y - 1) + DaysInYear(y - 1)
  }

  /** Days in the months 1 .. m-1 of year y. */
  function DaysBeforeMonth(y: int, m: int): nat
    requires 1 <= m <= 12
  {
    DaysBeforeMonthTable[m - 1] + (if m > 2 && IsLeapYear(y) then 1 else 0)
  }

  /** `date.toordinal()`. */
  function Ordinal(d: CalendarDate): int {
    DaysBeforeYear(d.year) + DaysBeforeMonth(d.year, d.month) + d.day
  }

  /** The day after `d`; `date.max` has none and raises OverflowError. */
  function NextDay(d: CalendarDate): (r: Outcome<CalendarDate>)
    ensures r.Value? <==> d != MaxDate
    ensures r.Raised? ==> r.fault == OverflowFault
    ensures r.Value? ==> Ordinal(r.value) == Ordinal(d) + 1
  {
    if d.day < DaysInMonth(d.year, d.month) then
      Value(Date(d.year, d.month, d.day + 1))
    else if d.month < 12 then
      assert DaysBeforeMonth(d.year, d.month + 1) == DaysBeforeMonth(d.year, d.month) + DaysInMonth(d.year, d.month);
      Value(Date(d.year, d.month + 1, 1))
    else if d.year < MaxYear then
      Value(Date(d.year + 1, 1, 1))
    else
      Raised(OverflowFault)
  }

  /** `d + relativedelta(days=n)` for n >= 0: fails exactly when the sum passes `date.max`. */
  function AddDays(d: CalendarDate, n: nat): (r: Outcome<CalendarDate>)
    ensures r.Value? <==> Ordinal(d) + n <= Ordinal(MaxDate)
    ensures r.Raised? ==> r.fault == OverflowFault
    ensures r.Value? ==> Ordinal(r.value) == Ordinal(d) + n
    decreases n
  {
    if n == 0 then
      OrdinalBounded(d);
      Value(d)
    else
      match NextDay(d)
      case Raised(f) => Raised(f)
      case Value(e) => AddDays(e, n - 1)
  }

  /** No date lies past `date.max`. */
  lemma OrdinalBounded(d: CalendarDate)
    ensures Ordinal(d) <= Ordinal(MaxDate)
  {
    DaysBeforeYearMonotone(d.year, MaxYear);
    if d.year < MaxYear {
      assert DaysBeforeMonth(d.year, d.month) + d.day <= DaysInYear(d.year);
      DaysBeforeYearMonotone(d.year + 1, MaxYear);
    }
  }

  lemma {:induction false} DaysBeforeYearMonotone(a: int, b: int)
    requires 1 <= a <= b
    ensures DaysBeforeYear(a) <= DaysBeforeYear(b)
    decreases b - a
  {
    if a < b {
      DaysBeforeYearMonotone(a, b - 1);
    }
  }

  /** `date.isoformat()`: YYYY-MM-DD, each field zero-padded. */
  function IsoFormat(d: CalendarDate): (s: string)
    ensures |s| == 10 && s[4] == '-' && s[7] == '-'
    ensures Decimal.AllDigits(s[..4]) && Decimal.AllDigits(s[5..7]) && Decimal.AllDigits(s[8..])
  {
    Decimal.Pad(d.year, 4) + "-" + Decimal.Pad(d.month, 2) + "-" + Decimal.Pad(d.day, 2)
  }

  /** The three fields of the ISO string read back as the year, month and day. */
  lemma IsoFormatReadsBack(d: CalendarDate)
    ensures Decimal.DigitsValue(IsoFormat(d)[..4]) == d.year
    ensures Decimal.DigitsValue(IsoFormat(d)[5..7]) == d.month
    ensures Decimal.DigitsValue(IsoFormat(d)[8..]) == d.day
  {
    var s := IsoFormat(d);
    assert s[..4] == Decimal.Pad(d.year, 4);
    assert s[5..7] == Decimal.Pad(d.month, 2);
    assert s[8..] == Decimal.Pad(d.day, 2);
    assert Decimal.Pow10(2) == 100;
    assert Decimal.Pow10(4) == 10000;
    Decimal.PadRoundTrip(d.year, 4);
    Decimal.PadRoundTrip(d.month, 2);
    Decimal.PadRoundTrip(d.day, 2);
  }

  /** Distinct dates never share an ISO string, so the string identifies the date. */
  lemma IsoFormatInjective(a: CalendarDate, b: CalendarDate)
    requires IsoFormat(a) == IsoFormat(b)
    ensures a == b
  {
    var s, t := IsoFormat(a), IsoFormat(b);
    assert s[..4] == Decimal.Pad(a.year, 4) && t[..4] == Decimal.Pad(b.year, 4);
    assert s[5..7] == Decimal.Pad(a.month, 2) && t[5..7] == Decimal.Pad(b.month, 2);
    assert s[8..] == Decimal.Pad(a.day, 2) && t[8..] == Decimal.Pad(b.day, 2);
    assert Decimal.Pow10(2) == 100;
    assert Decimal.Pow10(4) == 10000;
    Decimal.PadInjective(a.year, b.year, 4);
    Decimal.PadInjective(a.month, b.month, 2);
    Decimal.PadInjective(a.day, b.day, 2);
  }
}

=== FILE: decimal.dfy ===
/** Decimal digit strings: Python's `str(n)` and the zero-padded `%0Nd` of `isoformat`. */
module Decimal {

  predicate IsDigit(c: char) {
    '0' <= c <= '9'
  }

  predicate AllDigits(s: string) {
    forall i :: 0 <= i < |s| ==> IsDigit(s[i])
  }

  function DigitChar(n: nat): (c: char)
    requires n < 10
    ensures IsDigit(c)
  {
    ('0' as int + n) as char
  }

  function Pow10(k: nat): (p: nat)
    ensures p >= 1
  {
    if k == 0 then 1 else 10 * Pow10(k - 1)
  }

  /** The number a string of decimal digits denotes, most significant digit first. */
  function DigitsValue(s: string): (n: nat)
    requires AllDigits(s)
    ensures n < Pow10(|s|)
  {
    if |s| == 0 then 0
    else DigitsValue(s[..|s| - 1]) * 10 + (s[|s| - 1] as int - '0' as int)
  }

  /** The last `width` decimal digits of `n`, with leading zeros. */
  function Pad(n: nat, width: nat): (s: string)
    ensures |s| == width
    ensures AllDigits(s)
  {
    if width == 0 then "" else Pad(n / 10, width - 1) + [DigitChar(n % 10)]
  }

  /** Padding loses nothing when the number fits in the width. */
  lemma {:induction false} PadRoundTrip(n: nat, width: nat)
    requires n < Pow10(width)
    ensures DigitsValue(Pad(n, width)) == n
  {
    if width > 0 {
      var s := Pad(n, width);
      assert s[..|s| - 1] == Pad(n / 10, width - 1);
      assert n / 10 < Pow10(width - 1);
      PadRoundTrip(n / 10, width - 1);
    }
  }

  /** Two numbers that fit the width pad to the same string only if they are equal. */
  lemma PadInjective(a: nat, b: nat, width: nat)
    requires a < Pow10(width) && b < Pow10(width)
    requires Pad(a, width) == Pad(b, width)
    ensures a == b
  {
    PadRoundTrip(a, width);
    PadRoundTrip(b, width);
  }

  /** Python's `str(n)` for a natural number: its digits without leading zeros. */
  function NatText(n: nat): (s: string)
    ensures |s| >= 1 && AllDigits(s)
    ensures |s| > 1 ==> s[0] != '0'
    ensures DigitsValue(s) == n
    decreases n
  {
    if n < 10 then [DigitChar(n)]
    else
      var s := NatText(n / 10) + [DigitChar(n % 10)];
      assert s[..|s| - 1] == NatText(n / 10);
      s
  }

  /** Python's `str(n)` for any integer. */
  function IntText(n: int): (s: string)
    ensures |s| >= 1
    ensures n < 0 <==> s[0] == '-'
  {
    if n < 0 then "-" + NatText(-n) else NatText(n)
  }
}

=== FILE: exceptions.dfy ===
/**
 The failures a client call or a validation scenario can raise (helpers/exceptions.py),
 together with the Python built-in errors that the code provokes along the way, and
 the `Outcome` of a call: a value, or the fault it raised.
 */
module Exceptions {

  datatype Fault =
    // the domain errors of helpers/exceptions.py
    | BadRequest
    | InternalServerError
    | InvalidCredentials
    | PropertyNotFound
    | PostingRatesError
    | ReservationNotFound
    | StatusCodeException   // defines no attributes of its own, `status_code` included
    // Python built-in errors
    | AttributeFault      // AttributeError: an attribute the object never defines is read
    | KeyFault            // KeyError: a missing format field or dictionary key
    | DecodeFault         // JSONDecodeError: `response.json()` on a body that is not JSON
    | IndexFault          // IndexError: `[0]` on an empty list or string
    | TypeFault           // TypeError: `len` or a subscript on a value that has none
    | UnboundLocalFault   // UnboundLocalError: a handler reads a local never assigned
    | OverflowFault       // OverflowError: a date past 9999-12-31
    | TransportFault      // a timeout or connection error raised inside the HTTP library

  /** Every fault above is an `Exception` subclass, so `except Exception` catches any of them. */
  datatype Outcome<+T> = Value(value: T) | Raised(fault: Fault) {

    predicate IsFailure() {
      Raised?
    }

    function PropagateFailure<U>(): Outcome<U>
      requires Raised?
    {
      Raised(fault)
    }

    function Extract(): T
      requires Value?
    {
      value
    }
  }
}

=== FILE: json.dfy ===
/**
 Decoded JSON values as the HTTP library's `response.json()` hands them to Python, and
 the few Python operations the validator applies to them: `len(x)`, `x[0]`, `x[key]`
 and `str(x)`. JSON numbers are integers here; an object keeps its members in
 document order.
 */
module Json {
  import opened Exceptions
  import Decimal

  datatype Json =
    | JNull
    | JBool(b: bool)
    | JNum(n: int)
    | JStr(s: string)
    | JArr(items: seq<Json>)
    | JObj(members: seq<Member>)

  datatype Member = Member(key: string, value: Json)

  function Keys(members: seq<Member>): set<string> {
    set m | m in members :: m.key
  }

  /** `len(x)`: lists, strings and dictionaries have a length; anything else is a TypeError. */
  function Len(j: Json): (r: Outcome<nat>)
    ensures r.Raised? <==> !(j.JArr? || j.JStr? || j.JObj?)
    ensures r.Raised? ==> r.fault == TypeFault
    ensures r == Value(0) <==> j in {JArr([]), JStr(""), JObj([])}
  {
    match j
    case JArr(items) => Value(|items|)
    case JStr(s) => Value(|s|)
    case JObj(members) =>
      assert |members| > 0 ==> members[0].key in Keys(members);
      Value(|Keys(members)|)
    case _ => Raised(TypeFault)
  }

  /**
   `x[0]`: the first element of a list, the first character of a string; a dictionary
   has string keys only, so the integer key is missing; scalars cannot be subscripted.
   */
  function Item0(j: Json): (r: Outcome<Json>)
    ensures r == Raised(IndexFault) <==> j in {JArr([]), JStr("")}
    ensures r.Value? <==> Len(j).Value? && Len(j).value > 0 && !j.JObj?
    ensures r.Value? && j.JArr? ==> r.value == j.items[0]
    ensures r.Value? && j.JStr? ==> r.value == JStr(j.s[..1])
    ensures r.Raised? && r.fault != IndexFault ==> r.fault == (if j.JObj? then KeyFault else TypeFault)
  {
    match j
    case JArr(items) => if |items| == 0 then Raised(IndexFault) else Value(items[0])
    case JStr(s) => if |s| == 0 then Raised(IndexFault) else assert [s[0]] == s[..1]; Value(JStr([s[0]]))
    case JObj(_) => Raised(KeyFault)
    case _ => Raised(TypeFault)
  }

  /** The value of the last member named `key`: the one a JSON decoder keeps. */
  function LastValue(members: seq<Member>, key: string): (r: Outcome<Json>)
    ensures r.Value? <==> key in Keys(members)
    ensures r.Raised? ==> r.fault == KeyFault
    ensures r.Value? ==> exists i :: 0 <= i < |members| && members[i] == Member(key, r.value)
                                     && forall k :: i < k < |members| ==> members[k].key != key
  {
    if |members| == 0 then Raised(KeyFault)
    else
      var last := members[|members| - 1];
      var front := members[..|members| - 1];
      assert members == front + [last];
      assert Keys(members) == Keys(front) + {last.key};
      if last.key == key then Value(last.value)
      else LastValue(front, key)
  }

  /** `x[key]` with a string key: only a dictionary supports it. */
  function Lookup(j: Json, key: string): (r: Outcome<Json>)
    ensures r.Value? <==> j.JObj? && key in Keys(j.members)
    ensures r.Raised? ==> r.fault == (if j.JObj? then KeyFault else TypeFault)
    ensures r.Value? ==> exists i :: 0 <= i < |j.members| && j.members[i] == Member(key, r.value)
                                     && forall k :: i < k < |j.members| ==> j.members[k].key != key
  {
    match j
    case JObj(members) => LastValue(members, key)
    case _ => Raised(TypeFault)
  }

  /** The index of the last member named `key`, the one whose value a decoder keeps. */
  function LastIndex(members: seq<Member>, key: string): (i: nat)
    requires key in Keys(members)
    ensures i < |members| && members[i].key == key
    ensures forall k :: i < k < |members| ==> members[k].key != key
    ensures LastValue(members, key) == Value(members[i].value)
  {
    var last := |members| - 1;
    assert members == members[..last] + [members[last]];
    assert Keys(members) == Keys(members[..last]) + {members[last].key};
    if members[last].key == key then last
    else
      var i := LastIndex(members[..last], key);
      assert members[..last][i] == members[i];
      i
  }

  /**
   The index of the first member named `key`: where a dictionary places that key; the
   number of members when no member has it.
   */
  function FirstIndex(members: seq<Member>, key: string): (i: nat)
    ensures i <= |members|
    ensures i < |members| ==> members[i].key == key
    ensures forall k :: 0 <= k < i ==> members[k].key != key
  {
    if |members| == 0 then 0
    else if members[0].key == key then 0
    else
      var i := FirstIndex(members[1..], key);
      assert forall k :: 1 <= k < i + 1 ==> members[k] == members[1..][k - 1];
      i + 1
  }

  /** A member whose key has not occurred before it is that key's first occurrence. */
  lemma FirstIndexAt(members: seq<Member>, i: nat)
    requires i < |members| && members[i].key !in Keys(members[..i])
    ensures FirstIndex(members, members[i].key) == i
  {
  }

  /** A key that occurs from `from` on but not before has its first occurrence there. */
  lemma FirstIndexFrom(members: seq<Member>, from: nat, key: string)
    requires from <= |members| && key in Keys(members[from..]) && key !in Keys(members[..from])
    ensures from <= FirstIndex(members, key) < |members|
  {
    var m :| m in members[from..] && m.key == key;
    var k :| 0 <= k < |members[from..]| && members[from..][k] == m;
    assert members[from + k] == m;
  }

  /**
   The entries of the dictionary a decoder builds from `members`, for the keys first
   occurring at index `from` or later: each key once, at its first occurrence, with the
   value of its last (DictEntriesKeys, DictEntriesValues and DictEntriesOrder).
   */
  function DictEntries(members: seq<Member>, from: nat): seq<Member>
    requires from <= |members|
    decreases |members| - from
  {
    if from == |members| then []
    else if members[from].key in Keys(members[..from]) then DictEntries(members, from + 1)
    else
      assert members[from] in members;
      [Member(members[from].key, LastValue(members, members[from].key).value)] + DictEntries(members, from + 1)
  }

  /** Splitting off the member at `from` splits the keys before and after it. */
  lemma KeysAt(members: seq<Member>, from: nat)
    requires from < |members|
    ensures Keys(members[from..]) == {members[from].key} + Keys(members[from + 1..])
    ensures Keys(members[..from + 1]) == Keys(members[..from]) + {members[from].key}
  {
    assert members[from..] == [members[from]] + members[from + 1..];
    assert members[..from + 1] == members[..from] + [members[from]];
  }

  /** The entries hold exactly the keys that first occur from `from` on. */
  lemma {:induction false} DictEntriesKeys(members: seq<Member>, from: nat)
    requires from <= |members|
    ensures Keys(DictEntries(members, from)) == Keys(members[from..]) - Keys(members[..from])
    decreases |members| - from
  {
    if from < |members| {
      KeysAt(members, from);
      DictEntriesKeys(members, from + 1);
      var r := DictEntries(members, from);
      if members[from].key !in Keys(members[..from]) {
        assert r == [r[0]] + DictEntries(members, from + 1);
        assert Keys(r) == {r[0].key} + Keys(DictEntries(members, from + 1));
      }
    }
  }

  /** Each entry's value is the value of its key's last occurrence. */
  lemma {:induction false} DictEntriesValues(members: seq<Member>, from: nat)
    requires from <= |members|
    ensures forall e :: e in DictEntries(members, from) ==>
      e.key in Keys(members) && LastValue(members, e.key) == Value(e.value)
    decreases |members| - from
  {
    if from < |members| {
      DictEntriesValues(members, from + 1);
      assert members[from] in members;
    }
  }

  /** The entries follow the order of their keys' first occurrences. */
  lemma {:induction false} DictEntriesOrder(members: seq<Member>, from: nat)
    requires from <= |members|
    ensures forall i, k :: 0 <= i < k < |DictEntries(members, from)| ==>
      FirstIndex(members, DictEntries(members, from)[i].key) < FirstIndex(members, DictEntries(members, from)[k].key)
    decreases |members| - from
  {
    var r := DictEntries(members, from);
    if from < |members| && members[from].key !in Keys(members[..from]) {
      var rest := DictEntries(members, from + 1);
      DictEntriesOrder(members, from + 1);
      FirstIndexAt(members, from);
      LaterEntriesOccurLater(members, from + 1);
      assert r == [r[0]] + rest;
      OrderedCons(members, r[0], rest, from);
    } else if from < |members| {
      DictEntriesOrder(members, from + 1);
    }
  }

  /** The entries from index `after` on have keys first occurring there or later. */
  lemma LaterEntriesOccurLater(members: seq<Member>, after: nat)
    requires after <= |members|
    ensures forall k :: 0 <= k < |DictEntries(members, after)| ==>
      FirstIndex(members, DictEntries(members, after)[k].key) >= after
  {
    var rest := DictEntries(members, after);
    DictEntriesKeys(members, after);
    forall k | 0 <= k < |rest| ensures FirstIndex(members, rest[k].key) >= after {
      assert rest[k] in rest;
      assert rest[k].key in Keys(rest);
      FirstIndexFrom(members, after, rest[k].key);
    }
  }

  /** An entry whose key first occurs before every later entry's keeps the entries ordered. */
  lemma OrderedCons(members: seq<Member>, x: Member, rest: seq<Member>, from: nat)
    requires FirstIndex(members, x.key) == from
    requires forall k :: 0 <= k < |rest| ==> FirstIndex(members, rest[k].key) > from
    requires forall i, k :: 0 <= i < k < |rest| ==>
      FirstIndex(members, rest[i].key) < FirstIndex(members, rest[k].key)
    ensures forall i, k :: 0 <= i < k < |[x] + rest| ==>
      FirstIndex(members, ([x] + rest)[i].key) < FirstIndex(members, ([x] + rest)[k].key)
  {
    var r := [x] + rest;
    forall i, k | 0 <= i < k < |r|
      ensures FirstIndex(members, r[i].key) < FirstIndex(members, r[k].key)
    {
      assert r[k] == rest[k - 1];
      if i > 0 {
        assert r[i] == rest[i - 1];
      }
    }
  }

  /** Dictionary entries written out as Python does, `sep` before the first. */
  function ReprEntries(entries: seq<Member>, sep: string): string {
    if |entries| == 0 then ""
    else sep + "'" + entries[0].key + "': " + Repr(entries[0].value) + ReprEntries(entries[1..], ", ")
  }

  /** The printed dictionary shows exactly its entries, in their order. */
  lemma {:induction false} ReprDictPrintsEntries(members: seq<Member>, from: nat, sep: string)
    requires from <= |members|
    ensures ReprDict(members, from, sep) == ReprEntries(DictEntries(members, from), sep)
    decreases |members| - from
  {
    if from < |members| {
      var key := members[from].key;
      if key in Keys(members[..from]) {
        ReprDictPrintsEntries(members, from + 1, sep);
      } else {
        ReprDictPrintsEntries(members, from + 1, ", ");
        assert members[from] in members;
        var entries := DictEntries(members, from);
        assert entries[0] == Member(key, members[LastIndex(members, key)].value);
        assert entries[1..] == DictEntries(members, from + 1);
      }
    }
  }

  /**
   `str(x)`: a string is itself; any other value is written out as Python's repr. A
   decoded object is a dictionary: a repeated key is shown once, at the position of its
   first occurrence, with the value of its last.
   */
  function Str(j: Json): (t: string)
    ensures j.JStr? ==> t == j.s
    ensures j.JNum? ==> t == Decimal.IntText(j.n)
    ensures j.JObj? ==> t == "{" + ReprEntries(DictEntries(j.members, 0), "") + "}"
    ensures j.JObj? ==> Keys(DictEntries(j.members, 0)) == Keys(j.members)
  {
    match j
    case JStr(s) => s
    case JObj(members) =>
      ReprDictPrintsEntries(members, 0, "");
      DictEntriesKeys(members, 0);
      assert members[0..] == members && members[..0] == [];
      Repr(j)
    case _ => Repr(j)
  }

  function Repr(j: Json): string
    decreases j, 1, 0
  {
    match j
    case JNull => "None"
    case JBool(b) => if b then "True" else "False"
    case JNum(n) => Decimal.IntText(n)
    case JStr(s) => "'" + s + "'"
    case JArr(items) => "[" + ReprItems(items, 0) + "]"
    case JObj(members) => "{" + ReprDict(members, 0, "") + "}"
  }

  /** The list elements from index `from` on, comma-separated. */
  function ReprItems(items: seq<Json>, from: nat): string
    requires from <= |items|
    decreases JArr(items), 0, |items| - from
  {
    if from == |items| then ""
    else
      var sep := if from == 0 then "" else ", ";
      sep + Repr(items[from]) + ReprItems(items, from + 1)
  }

  /**
   The dictionary entries whose key first occurs at index `from` or later, each with its
   last value; `sep` goes before the first one written.
   */
  function ReprDict(members: seq<Member>, from: nat, sep: string): string
    requires from <= |members|
    decreases JObj(members), 0, |members| - from
  {
    if from == |members| then ""
    else if members[from].key in Keys(members[..from]) then ReprDict(members, from + 1, sep)
    else
      var key := members[from].key;
      assert members[from] in members;
      var value := members[LastIndex(members, key)].value;
      sep + "'" + key + "': " + Repr(value) + ReprDict(members, from + 1, ", ")
  }

  /**
   `str` of a decoded object lists its dictionary's entries: every key of the members
   exactly once, in the order of first occurrence, each with its last value.
   */
  lemma StrOfObject(members: seq<Member>)
    ensures var entries := DictEntries(members, 0);
      && Str(JObj(members)) == "{" + ReprEntries(entries, "") + "}"
      && Keys(entries) == Keys(members)
      && (forall e :: e in entries ==> LastValue(members, e.key) == Value(e.value))
      && (forall i, k :: 0 <= i < k < |entries| ==>
            FirstIndex(members, entries[i].key) < FirstIndex(members, entries[k].key))
  {
    DictEntriesValues(members, 0);
    DictEntriesOrder(members, 0);
  }

  /** A key given twice is shown once, in the first place, with the second value. */
  lemma StrShowsRepeatedKeyOnce()
    ensures Str(JObj([Member("a", JNum(1)), Member("a", JNum(2))])) == "{'a': 2}"
  {
    var members := [Member("a", JNum(1)), Member("a", JNum(2))];
    assert members[..1] == [Member("a", JNum(1))];
    assert "a" in Keys(members[..1]);
    assert members[..0] == [];
    assert LastIndex(members, "a") == 1;
    assert Decimal.IntText(2) == "2";
  }
}

=== FILE: report.dfy ===
/**
 What the validator prints, as tags: one line per verdict, one per schema violation,
 one for an echoed exception; and `_log_report_for_20x`, which turns the violations the
 schema evaluator finds into the verdict line and its sorted detail lines.
 */
module Report {
  import opened Exceptions
  import opened Json

  /** The schemas the scenarios validate payloads against. */
  datatype Schema =
    | AccountSchema
    | ListingIdsSchema
    | ListingSchema
    | CalendarSchema
    | ReservationListSchema
    | ReservationSchema

  /** One error from the schema evaluator: where, what, and `str(error)`, the key the report sorts by. */
  datatype Violation = Violation(jsonPath: string, message: string, text: string)

  /** The Draft 2020-12 evaluator with format checking, an oracle listing every violation. */
  type SchemaChecker = (Schema, Json) -> seq<Violation>

  /** The text after the mark of every verdict line the validator can print: the report context. */
  datatype Context =
    | AccountOk                                         // GET /account, expecting 200
    | AccountUnauthorized                               // GET /account, expecting 401
    | ListingIdsOk                                      // GET /listings, expecting 200
    | ListingOk(listingId: string)                      // GET /listings/<id>, expecting 200
    | ListingMissing                                    // GET /listings/invalid-id, expecting 404
    | CalendarOk(listingId: string)                     // GET /listings/<id>/calendar, expecting 200
    | CalendarMissing                                   // GET /listings/invalid-id/calendar, expecting 404
    | ReservationsOk(listingId: string)                 // GET /listings/<id>/reservations, expecting 200
    | ReservationsNotAList(listingId: string)           // the reservations answer was not a list
    | ReservationsUnauthorized(listingId: string)       // the reservations read was refused our credentials
    | ReservationsMissing                               // GET /listings/invalid-id/reservations, expecting 404
    | ReservationOk(reservationId: string)              // GET /reservations/<id>, expecting 200
    | NoReservations                                    // no reservation to look up
    | ReservationListRefused(listingId: string)         // the reservation list or lookup was refused our credentials
    | ReservationMissing                                // GET /reservations/invalid_id, expecting 404 (pass text)
    | ReservationMissingUnchecked                       // the same, with the "Couldn't Validate" fail text
    | RatesPosted(listingId: string)                    // POST /listing/<id>/calendar, expecting 201
    | RatesMissing                                      // POST /listings/invalid-id/calendar, expecting 404

  datatype Line =
    | Verdict(passed: bool, context: Context)   // a ✅ or ❌ line
    | Detail(violation: Violation)          // an indented "- <json path> - <message>" line
    | Echo(fault: Fault)                    // `print(e)` of a caught exception

  /** Python's `a <= b` on strings: lexicographic by code point. */
  predicate TextLe(a: string, b: string) {
    |a| == 0 || (|b| > 0 && (a[0] < b[0] || (a[0] == b[0] && TextLe(a[1..], b[1..]))))
  }

  lemma {:induction false} TextLeTotal(a: string, b: string)
    ensures TextLe(a, b) || TextLe(b, a)
  {
    if |a| > 0 && |b| > 0 && a[0] == b[0] {
      TextLeTotal(a[1..], b[1..]);
    }
  }

  lemma {:induction false} TextLeTransitive(a: string, b: string, c: string)
    requires TextLe(a, b) && TextLe(b, c)
    ensures TextLe(a, c)
  {
    if |a| > 0 && a[0] == b[0] && b[0] == c[0] {
      TextLeTransitive(a[1..], b[1..], c[1..]);
    }
  }

  predicate SortedByText(s: seq<Violation>) {
    forall i, j :: 0 <= i < j < |s| ==> TextLe(s[i].text, s[j].text)
  }

  function Insert(v: Violation, s: seq<Violation>): (r: seq<Violation>)
    ensures multiset(r) == multiset(s) + multiset{v}
  {
    if |s| == 0 then [v]
    else if TextLe(v.text, s[0].text) then [v] + s
    else
      assert s == [s[0]] + s[1..];
      [s[0]] + Insert(v, s[1..])
  }

  lemma {:induction false} InsertSorted(v: Violation, s: seq<Violation>)
    requires SortedByText(s)
    ensures SortedByText(Insert(v, s))
  {
    if |s| == 0 {
    } else if TextLe(v.text, s[0].text) {
      forall j | 0 <= j < |s| ensures TextLe(v.text, s[j].text) {
        if j > 0 { TextLeTransitive(v.text, s[0].text, s[j].text); }
      }
    } else {
      var rest := Insert(v, s[1..]);
      InsertSorted(v, s[1..]);
      TextLeTotal(v.text, s[0].text);
      forall j | 0 <= j < |rest| ensures TextLe(s[0].text, rest[j].text) {
        assert rest[j] in multiset(rest);
        if rest[j] != v {
          assert rest[j] in multiset(s[1..]);
          var k :| 0 <= k < |s[1..]| && s[1..][k] == rest[j];
          assert s[k + 1] == rest[j];
        }
      }
    }
  }

  /** `sorted(errors, key=str)`: the violations ordered by their text. */
  function SortByText(s: seq<Violation>): (r: seq<Violation>)
    ensures multiset(r) == multiset(s)
    ensures SortedByText(r)
  {
    if |s| == 0 then []
    else
      assert s == [s[0]] + s[1..];
      InsertSorted(s[0], SortByText(s[1..]));
      Insert(s[0], SortByText(s[1..]))
  }

  /** The violations a report's detail lines show, read back in order. */
  function Reported(lines: seq<Line>): seq<Violation>
    requires forall i :: 1 <= i < |lines| ==> lines[i].Detail?
  {
    seq(if |lines| == 0 then 0 else |lines| - 1, i requires 0 <= i < |lines| - 1 => lines[i + 1].violation)
  }

  /**
   `_log_report_for_20x`: a pass verdict when the payload has no violation; otherwise a
   fail verdict followed by exactly one detail line per violation, in sorted order.
   */
  function LogReport(context: Context, violations: seq<Violation>): (lines: seq<Line>)
    ensures |lines| == 1 + |violations|
    ensures lines[0] == Verdict(|violations| == 0, context)
    ensures forall i :: 1 <= i < |lines| ==> lines[i].Detail?
    ensures multiset(Reported(lines)) == multiset(violations)
    ensures SortedByText(Reported(lines))
  {
    var sorted := SortByText(violations);
    assert |sorted| == |multiset(sorted)| == |violations|;
    var lines := [Verdict(|violations| == 0, context)] + seq(|sorted|, i requires 0 <= i < |sorted| => Detail(sorted[i]));
    assert Reported(lines) == sorted;
    lines
  }
}

=== FILE: routes.dfy ===
/**
 The client's route templates and Python's `str.format(**kwargs)` on them. A template is
 held already split into literal text and named `{...}` fields.
 */
module Routes {
  import opened Wrappers

  datatype Piece = Text(text: string) | Field(name: string)

  type Template = seq<Piece>

  /** The names of the fields a template needs. */
  function FieldNames(t: Template): set<string> {
    set p | p in t && p.Field? :: p.name
  }

  /** One piece formatted: literal text as is, a field as its argument if there is one. */
  function PieceText(p: Piece, args: map<string, string>): Option<string> {
    match p
    case Text(s) => Some(s)
    case Field(n) => if n in args then Some(args[n]) else None
  }

  /**
   `template.format(**args)`: each field replaced by its argument's text. A field with no
   argument is a KeyError (None); arguments the template does not name are ignored.
   */
  function Render(t: Template, args: map<string, string>): (r: Option<string>)
    ensures r.Some? <==> FieldNames(t) <= args.Keys
  {
    if |t| == 0 then Some("")
    else
      assert t == [t[0]] + t[1..];
      assert FieldNames(t) == FieldNames([t[0]]) + FieldNames(t[1..]);
      var head := PieceText(t[0], args);
      var tail := Render(t[1..], args);
      if head.Some? && tail.Some? then Some(head.value + tail.value) else None
  }

  /** Rendering a concatenation renders each part in turn. */
  lemma {:induction false} RenderConcat(a: Template, b: Template, args: map<string, string>)
    requires FieldNames(a + b) <= args.Keys
    ensures FieldNames(a) <= args.Keys && FieldNames(b) <= args.Keys
    ensures Render(a + b, args).value == Render(a, args).value + Render(b, args).value
  {
    assert FieldNames(a + b) == FieldNames(a) + FieldNames(b) by {
      forall p | p in a + b ensures p in a || p in b { }
    }
    if |a| > 0 {
      assert (a + b)[1..] == a[1..] + b;
      RenderConcat(a[1..], b, args);
    } else {
      assert a + b == b;
    }
  }

  /** Only the arguments a template names matter. */
  lemma {:induction false} RenderIgnoresExtraArgs(t: Template, args: map<string, string>, other: map<string, string>)
    requires forall n :: n in FieldNames(t) ==> (n in args <==> n in other)
    requires forall n :: n in FieldNames(t) && n in args ==> args[n] == other[n]
    ensures Render(t, args) == Render(t, other)
  {
    if |t| > 0 {
      assert FieldNames(t[1..]) <= FieldNames(t);
      RenderIgnoresExtraArgs(t[1..], args, other);
    }
  }

  // The ROUTES table of DynamicAPIClient.
  const PathAccount: Template := [Text("/account")]
  const PathListings: Template := [Text("/listings")]
  const PathListing: Template := [Text("/listings/"), Field("listing_id")]
  const PathCalendar: Template := [Text("/listings/"), Field("listing_id"), Text("/calendar")]
  const PathListingReservation: Template := [Text("/listings/"), Field("listing_id"), Text("/reservations")]
  const PathReservation: Template := [Text("/reservations/"), Field("reservation_id")]
}

=== FILE: scenario_facts.dfy ===
/**
 What the validator's scenarios print for given server behaviour, obtained by composing
 the scenarios with the client's status dispatch, and how `run` strings them together.
 */
module ScenarioFacts {
  import opened Wrappers
  import opened Exceptions
  import opened Json
  import opened Client
  import opened Report
  import opened Validator
  import Dates

  /** The server answers every request with `status` (bodies may differ). */
  ghost predicate AnswersEvery(transport: Transport, status: int) {
    forall q :: transport(q).Delivered? && transport(q).response.status == status
  }

  /**
   What every client method guarantees, whatever the server does: it raises only the
   faults of the status table or a transport error, and a successful `post_rates`
   returns `[]`.
   */
  ghost predicate BehavesLikeClient(env: Env) {
    && (forall ep :: env.call(ep).Raised? ==> env.call(ep).fault in DispatchFaults + {TransportFault})
    && (forall ep :: env.callWithInvalidKey(ep).Raised? ==>
          env.callWithInvalidKey(ep).fault in DispatchFaults + {TransportFault})
    && (forall ep: Endpoint :: ep.PostRates? && env.call(ep).Value? ==> env.call(ep).value == JArr([]))
  }

  /** The scenarios' view of a real client has those guarantees. */
  lemma ConnectBehavesLikeClient(client: Config, transport: Transport, check: SchemaChecker,
                                 today: Dates.CalendarDate)
    ensures BehavesLikeClient(Connect(client, transport, check, today))
  {
  }

  // ---------------------------------------------------------------------------
  // Negative scenarios against the client

  /**
   Each negative scenario passes exactly when its call raises the not-found fault of its
   resource, fails exactly when the call raises anything else, and prints nothing when
   the call returns.
   */
  lemma NegativeScenarioVerdicts(env: Env)
    ensures ValidateListingReturns404(env) == Value([Verdict(true, ListingMissing)])
        <==> env.call(ListingById(InvalidId)) == Raised(PropertyNotFound)
    ensures ValidateCalendarReturns404(env) == Value([Verdict(true, CalendarMissing)])
        <==> env.call(CalendarByListingId(InvalidId)) == Raised(PropertyNotFound)
    ensures ValidateReservationsReturn404(env) == Value([Verdict(true, ReservationsMissing)])
        <==> env.call(ReservationsByListingId(InvalidId, None)) == Raised(PropertyNotFound)
    ensures ValidateReservationReturns404(env) == Value([Verdict(true, ReservationMissing)])
        <==> env.call(ReservationById(InvalidId)) == Raised(ReservationNotFound)
    ensures ValidatePostPricesReturns404(env) == Value([Verdict(true, RatesMissing)])
        <==> env.call(PostRates(InvalidId, [])) == Raised(PropertyNotFound)
    ensures ValidateReservationReturns404(env) == Value([Verdict(false, ReservationMissingUnchecked)])
        <==> env.call(ReservationById(InvalidId)).Raised?
             && env.call(ReservationById(InvalidId)).fault != ReservationNotFound
    ensures ValidateListingReturns404(env) == Value([]) <==> env.call(ListingById(InvalidId)).Value?
    ensures ValidatePostPricesReturns404(env) == Value([]) <==> env.call(PostRates(InvalidId, [])).Value?
  {
  }

  /** Against a server that answers 404, every method that names a resource raises. */
  lemma NotFoundRaises(client: Config, transport: Transport, ep: Endpoint)
    requires AnswersEvery(transport, 404)
    requires !ep.AccountInformation? && !ep.ListingIds?
    ensures Call(client, ep, transport) == Raised(if ep.ReservationById? then ReservationNotFound else PropertyNotFound)
  {
    assert transport(BuildRequest(client, ep).value).Delivered?;
  }

  /** Against a server that answers `status`, every method raises something other than not-found. */
  lemma ErrorStatusRaises(client: Config, transport: Transport, ep: Endpoint, status: int)
    requires status !in {200, 201, 404}
    requires AnswersEvery(transport, status)
    ensures Call(client, ep, transport).Raised?
    ensures Call(client, ep, transport).fault !in {PropertyNotFound, ReservationNotFound}
  {
    assert transport(BuildRequest(client, ep).value).Delivered?;
  }

  /** A server that answers 404 makes every negative scenario pass, whatever the body. */
  lemma NotFoundPassesEveryNegativeScenario(client: Config, transport: Transport, check: SchemaChecker,
                                            today: Dates.CalendarDate)
    requires AnswersEvery(transport, 404)
    ensures var env := Connect(client, transport, check, today);
      && ValidateListingReturns404(env) == Value([Verdict(true, ListingMissing)])
      && ValidateCalendarReturns404(env) == Value([Verdict(true, CalendarMissing)])
      && ValidateReservationsReturn404(env) == Value([Verdict(true, ReservationsMissing)])
      && ValidateReservationReturns404(env) == Value([Verdict(true, ReservationMissing)])
      && ValidatePostPricesReturns404(env) == Value([Verdict(true, RatesMissing)])
  {
    NotFoundRaises(client, transport, ListingById(InvalidId));
    NotFoundRaises(client, transport, CalendarByListingId(InvalidId));
    NotFoundRaises(client, transport, ReservationsByListingId(InvalidId, None));
    NotFoundRaises(client, transport, ReservationById(InvalidId));
    NotFoundRaises(client, transport, PostRates(InvalidId, []));
  }

  /**
   A server that answers any code other than 200, 201 or 404 (400, 401 and 500 included,
   and every code outside the allowed set) makes every negative scenario fail.
   */
  lemma ErrorStatusFailsEveryNegativeScenario(client: Config, transport: Transport, check: SchemaChecker,
                                              today: Dates.CalendarDate, status: int)
    requires status !in {200, 201, 404}
    requires AnswersEvery(transport, status)
    ensures var env := Connect(client, transport, check, today);
      && ValidateListingReturns404(env) == Value([Verdict(false, ListingMissing)])
      && ValidateCalendarReturns404(env) == Value([Verdict(false, CalendarMissing)])
      && ValidateReservationsReturn404(env) == Value([Verdict(false, ReservationsMissing)])
      && ValidateReservationReturns404(env) == Value([Verdict(false, ReservationMissingUnchecked)])
      && ValidatePostPricesReturns404(env) == Value([Verdict(false, RatesMissing)])
  {
    ErrorStatusRaises(client, transport, ListingById(InvalidId), status);
    ErrorStatusRaises(client, transport, CalendarByListingId(InvalidId), status);
    ErrorStatusRaises(client, transport, ReservationsByListingId(InvalidId, None), status);
    ErrorStatusRaises(client, transport, ReservationById(InvalidId), status);
    ErrorStatusRaises(client, transport, PostRates(InvalidId, []), status);
  }

  /**
   The 401 scenario asks with the key "invalid-api-key" at the same base URL, and passes
   exactly when that request is answered 401.
   */
  lemma UnauthorizedScenarioPassesOnlyOn401(client: Config, transport: Transport, check: SchemaChecker,
                                            today: Dates.CalendarDate)
    ensures var q := BuildRequest(InvalidClient(client), AccountInformation).value;
      && q.headers[ApiKeyHeader] == InvalidApiKey
      && q.url == client.baseUrl + "/account"
      && (ValidateAccountReturns401(Connect(client, transport, check, today))
            == Value([Verdict(true, AccountUnauthorized)])
          <==> transport(q).Delivered? && transport(q).response.status == 401)
  {
  }

  // ---------------------------------------------------------------------------
  // Positive scenarios against the client's answers

  /** The account and listing-id scenarios report on their call, whose fault escapes. */
  lemma AccountAndListingIdReports(env: Env)
    ensures ReportsOn(ValidateAccountReturns200(env), env.call(AccountInformation), AccountOk, AccountSchema, env.check)
    ensures ReportsOn(ValidateListingIdsReturns200(env), env.call(ListingIds), ListingIdsOk, ListingIdsSchema, env.check)
  {
  }

  /** `get_listing_ids` is called outside every `try`, so its fault escapes each scenario that reads the ids. */
  lemma ListingIdsFaultEscapes(env: Env)
    requires env.call(ListingIds).Raised?
    ensures var escaped: Outcome<seq<Line>> := Raised(env.call(ListingIds).fault);
      && ValidateListingIdsReturns200(env) == escaped
      && ValidateListingReturns200(env) == escaped
      && ValidateCalendarReturns200(env) == escaped
      && ValidateReservationsReturn200(env) == escaped
      && ValidateReservationReturns200(env) == escaped
      && ValidatePostPricesReturns201(env) == escaped
  {
  }

  /**
   Ids that `[0]` cannot read (an empty list or string, an object, a scalar): three
   scenarios raise that fault, and the two reservation scenarios let it through their
   handlers, as UnboundLocalError when a handler catches it.
   */
  lemma UnindexableListingIdsEscape(env: Env)
    requires env.call(ListingIds).Value? && Item0(env.call(ListingIds).value).Raised?
    ensures var f := Item0(env.call(ListingIds).value).fault;
      && f in {IndexFault, KeyFault, TypeFault}
      && ValidateListingReturns200(env) == Raised(f)
      && ValidateCalendarReturns200(env) == Raised(f)
      && ValidatePostPricesReturns201(env) == Raised(f)
      && ValidateReservationsReturn200(env) == CaughtBeforeBinding(f)
      && ValidateReservationReturns200(env) == CaughtBeforeBinding(f)
  {
  }

  /**
   With the first listing id read, the listing and calendar scenarios report on their
   read; a StatusCodeException from the calendar read is caught by a handler that
   itself raises AttributeError.
   */
  lemma FirstListingReports(env: Env, first: Json)
    requires env.call(ListingIds).Value? && Item0(env.call(ListingIds).value) == Value(first)
    ensures var id := Str(first);
      ReportsOn(ValidateListingReturns200(env), env.call(ListingById(id)), ListingOk(id), ListingSchema, env.check)
    ensures var id := Str(first); var o := env.call(CalendarByListingId(id));
      && (o == Raised(StatusCodeException) ==> ValidateCalendarReturns200(env) == Raised(AttributeFault))
      && (o != Raised(StatusCodeException) ==>
            ReportsOn(ValidateCalendarReturns200(env), o, CalendarOk(id), CalendarSchema, env.check))
  {
  }

  /** With the first listing id read, the rate scenario posts the batch and reports on the answer. */
  lemma RatePostReports(env: Env, first: Json)
    requires env.call(ListingIds).Value? && Item0(env.call(ListingIds).value) == Value(first)
    ensures DummyRates(env.today).Raised? ==> ValidatePostPricesReturns201(env) == Raised(OverflowFault)
    ensures DummyRates(env.today).Value? ==>
      ReportsOn(ValidatePostPricesReturns201(env), env.call(PostRates(Str(first), RatesJson(DummyRates(env.today).value))),
                RatesPosted(Str(first)), CalendarSchema, env.check)
  {
  }

  /**
   With the first listing id read, the reservation-list scenario reports on the list;
   IndexError and InvalidCredentials print their fail lines, any other fault escapes.
   */
  lemma ReservationListReports(env: Env, first: Json)
    requires env.call(ListingIds).Value? && Item0(env.call(ListingIds).value) == Value(first)
    ensures var id := Str(first); var o := env.call(ReservationsByListingId(id, None));
      && (o == Raised(IndexFault) ==> ValidateReservationsReturn200(env) == Value([Verdict(false, ReservationsNotAList(id))]))
      && (o == Raised(InvalidCredentials) ==>
            ValidateReservationsReturn200(env) == Value([Verdict(false, ReservationsUnauthorized(id))]))
      && (o != Raised(IndexFault) && o != Raised(InvalidCredentials) ==>
            ReportsOn(ValidateReservationsReturn200(env), o, ReservationsOk(id), ReservationListSchema, env.check))
  {
  }

  /**
   With the first listing id read, the reservation scenario prints what the lookup
   prints; IndexError and InvalidCredentials print their fail lines, any other fault escapes.
   */
  lemma ReservationLookupReports(env: Env, first: Json)
    requires env.call(ListingIds).Value? && Item0(env.call(ListingIds).value) == Value(first)
    ensures var id := Str(first); var d := ReservationDetail(env, id);
      && (d == Raised(IndexFault) ==> ValidateReservationReturns200(env) == Value([Verdict(false, ReservationsNotAList(id))]))
      && (d == Raised(InvalidCredentials) ==>
            ValidateReservationReturns200(env) == Value([Verdict(false, ReservationListRefused(id))]))
      && (d != Raised(IndexFault) && d != Raised(InvalidCredentials) ==> ValidateReservationReturns200(env) == d)
  {
  }

  /**
   The lookup once `listing_id` is bound: the list's fault escapes, `len` of a scalar
   raises TypeError, and an empty list, string or object prints the no-reservation line.
   */
  lemma ReservationDetailOnTheList(env: Env, listingId: string)
    ensures var list := env.call(ReservationsByListingId(listingId, None));
      && (list.Raised? ==> ReservationDetail(env, listingId) == Raised(list.fault))
      && (list.Value? && Len(list.value).Raised? ==> ReservationDetail(env, listingId) == Raised(TypeFault))
      && (list.Value? && Len(list.value) == Value(0) ==>
            ReservationDetail(env, listingId) == Value([Verdict(false, NoReservations)]))
  {
  }

  /**
   A non-empty list: `[0]` and `["id"]` raise KeyError or TypeError on the wrong shapes,
   and otherwise the first reservation's record is looked up and reported on.
   */
  lemma ReservationDetailOnTheFirstReservation(env: Env, listingId: string, reservations: Json)
    requires env.call(ReservationsByListingId(listingId, None)) == Value(reservations)
    requires Len(reservations).Value? && Len(reservations).value > 0
    ensures Item0(reservations).Raised? ==>
      ReservationDetail(env, listingId) == Raised(KeyFault) && reservations.JObj?
    ensures Item0(reservations).Value? && Lookup(Item0(reservations).value, "id").Raised? ==>
      ReservationDetail(env, listingId) == Raised(Lookup(Item0(reservations).value, "id").fault)
    ensures Item0(reservations).Value? && Lookup(Item0(reservations).value, "id").Value? ==>
      var rid := Str(Lookup(Item0(reservations).value, "id").value);
      ReportsOn(ReservationDetail(env, listingId), env.call(ReservationById(rid)), ReservationOk(rid),
                ReservationSchema, env.check)
  {
  }

  // ---------------------------------------------------------------------------
  // Prerequisite data

  /**
   An empty listing-id list is not survived by any scenario that needs an id: three
   index it outside a `try`, and the two reservation scenarios catch the IndexError in
   a handler that itself reads the unassigned `listing_id`.
   */
  lemma EmptyListingIdsEscape(env: Env)
    requires env.call(ListingIds) == Value(JArr([]))
    ensures ValidateListingReturns200(env) == Raised(IndexFault)
    ensures ValidateCalendarReturns200(env) == Raised(IndexFault)
    ensures ValidatePostPricesReturns201(env) == Raised(IndexFault)
    ensures ValidateReservationsReturn200(env) == Raised(UnboundLocalFault)
    ensures ValidateReservationReturns200(env) == Raised(UnboundLocalFault)
  {
  }

  /** So a run against such an account prints the first three scenarios and stops. */
  lemma EmptyListingIdsEndRun(env: Env)
    requires env.call(ListingIds) == Value(JArr([]))
    requires ValidateAccountReturns200(env).Value?
    ensures RunAll(Outcomes(env)) == Transcript(
      ValidateAccountReturns200(env).value + ValidateAccountReturns401(env).value
        + LogReport(ListingIdsOk, env.check(ListingIdsSchema, JArr([]))),
      Some(IndexFault))
  {
    FirstFourOutcomes(env);
    StopsAtFourth(Outcomes(env), ValidateAccountReturns200(env).value, ValidateAccountReturns401(env).value,
                  LogReport(ListingIdsOk, env.check(ListingIdsSchema, JArr([]))), IndexFault);
  }

  /** The first four entries of the run, the fourth raising on the empty id list. */
  lemma FirstFourOutcomes(env: Env)
    requires env.call(ListingIds) == Value(JArr([]))
    ensures |Outcomes(env)| == 13
    ensures Outcomes(env)[0] == ValidateAccountReturns200(env)
    ensures Outcomes(env)[1] == ValidateAccountReturns401(env)
    ensures Outcomes(env)[2] == Value(LogReport(ListingIdsOk, env.check(ListingIdsSchema, JArr([]))))
    ensures Outcomes(env)[3] == Raised(IndexFault)
  {
    assert Scenarios[2] == ValidateListingIdsReturns200;
    assert Scenarios[3] == ValidateListingReturns200;
    assert Outcomes(env)[2] == ValidateListingIdsReturns200(env);
    assert Outcomes(env)[3] == ValidateListingReturns200(env);
  }

  /** A run whose fourth scenario raises prints the first three and ends with that fault. */
  lemma StopsAtFourth(o: seq<Outcome<seq<Line>>>, a: seq<Line>, b: seq<Line>, c: seq<Line>, f: Fault)
    requires |o| >= 4 && o[0] == Value(a) && o[1] == Value(b) && o[2] == Value(c) && o[3] == Raised(f)
    ensures RunAll(o) == Transcript(a + b + c, Some(f))
  {
    RunStopsAtFirstFault(o, 3);
    CompletedRun(o[..3]);
  }

  /** Three scenarios that all complete print their lines one after another. */
  lemma CompletedRun(o: seq<Outcome<seq<Line>>>)
    requires |o| == 3 && o[0].Value? && o[1].Value? && o[2].Value?
    ensures RunAll(o) == Transcript(o[0].value + o[1].value + o[2].value, None)
  {
    assert o[1..][1..][1..] == [];
    assert o[1..][1..][0] == o[2];
    assert o[1..][0] == o[1];
    assert RunAll(o[1..][1..]) == Transcript(o[2].value + [], None);
    assert o[2].value + [] == o[2].value;
  }

  /** An empty reservation list prints one fail line and never looks up a reservation. */
  lemma EmptyReservationListSkipsDetail(env: Env, first: Json)
    requires env.call(ListingIds).Value? && Item0(env.call(ListingIds).value) == Value(first)
    requires env.call(ReservationsByListingId(Str(first), None)) == Value(JArr([]))
    ensures ValidateReservationReturns200(env) == Value([Verdict(false, NoReservations)])
  {
  }

  /** Whatever the server answers to a successful rate post, the report checks `[]`. */
  lemma PostedRatesReportEmptyList(env: Env, first: Json, rates: seq<Rate>)
    requires BehavesLikeClient(env)
    requires env.call(ListingIds).Value? && Item0(env.call(ListingIds).value) == Value(first)
    requires DummyRates(env.today) == Value(rates)
    requires env.call(PostRates(Str(first), RatesJson(rates))).Value?
    ensures ValidatePostPricesReturns201(env)
         == Value(LogReport(RatesPosted(Str(first)), env.check(CalendarSchema, JArr([]))))
  {
    assert env.call(PostRates(Str(first), RatesJson(rates))).value == JArr([]);
  }

  // ---------------------------------------------------------------------------
  // Handlers that never run

  /**
   The calendar scenario's StatusCodeException handler never runs, since no client
   method raises that exception: with the first listing id read, the scenario is
   exactly the report on the calendar read.
   */
  lemma CalendarStatusHandlerNeverRuns(env: Env, first: Json)
    requires BehavesLikeClient(env)
    requires env.call(ListingIds).Value? && Item0(env.call(ListingIds).value) == Value(first)
    ensures ReportsOn(ValidateCalendarReturns200(env), env.call(CalendarByListingId(Str(first))),
                      CalendarOk(Str(first)), CalendarSchema, env.check)
  {
    var o := env.call(CalendarByListingId(Str(first)));
    assert o.Raised? ==> o.fault in DispatchFaults + {TransportFault};
  }

  /**
   The IndexError handlers of the reservation scenarios are dead once `listing_id` is
   bound: no client method raises IndexError, `len` does not, and `[0]` on a non-empty
   value and `["id"]` raise KeyError or TypeError instead.
   */
  lemma NotAListHandlersNeverRun(env: Env, listingId: string)
    requires BehavesLikeClient(env)
    ensures env.call(ReservationsByListingId(listingId, None)) != Raised(IndexFault)
    ensures ReservationDetail(env, listingId) != Raised(IndexFault)
  {
    var reservations := env.call(ReservationsByListingId(listingId, None));
    assert reservations.Raised? ==> reservations.fault in DispatchFaults + {TransportFault};
    if reservations.Value? && Len(reservations.value).Value? && Len(reservations.value).value != 0 {
      var first := Item0(reservations.value);
      if first.Value? && Lookup(first.value, "id").Value? {
        var rid := Str(Lookup(first.value, "id").value);
        assert env.call(ReservationById(rid)).Raised? ==> env.call(ReservationById(rid)).fault in DispatchFaults + {TransportFault};
      }
    }
  }

  /** The verdicts a line list gives, all about `context`. */
  predicate OnlyVerdictsOn(lines: seq<Line>, context: Context) {
    forall i :: 0 <= i < |lines| && lines[i].Verdict? ==> lines[i].context == context
  }

  /** A report's only verdict is its first line. */
  lemma ReportVerdictIsItsContext(context: Context, violations: seq<Violation>)
    ensures OnlyVerdictsOn(LogReport(context, violations), context)
  {
  }

  /** The list scenario never prints its "does not return a list" line. */
  lemma ListNotAListLineNeverPrinted(env: Env)
    requires BehavesLikeClient(env)
    ensures ValidateReservationsReturn200(env).Value? ==>
      forall i :: 0 <= i < |ValidateReservationsReturn200(env).value| ==>
        !(ValidateReservationsReturn200(env).value[i].Verdict?
          && ValidateReservationsReturn200(env).value[i].context.ReservationsNotAList?)
  {
    var ids := env.call(ListingIds);
    if ids.Value? && Item0(ids.value).Value? {
      var id := Str(Item0(ids.value).value);
      NotAListHandlersNeverRun(env, id);
      var list := env.call(ReservationsByListingId(id, None));
      if list.Value? {
        ReportVerdictIsItsContext(ReservationsOk(id), env.check(ReservationListSchema, list.value));
      }
    }
  }

  /** The detail scenario never prints its "does not return a list" line. */
  lemma DetailNotAListLineNeverPrinted(env: Env)
    requires BehavesLikeClient(env)
    ensures ValidateReservationReturns200(env).Value? ==>
      forall i :: 0 <= i < |ValidateReservationReturns200(env).value| ==>
        !(ValidateReservationReturns200(env).value[i].Verdict?
          && ValidateReservationReturns200(env).value[i].context.ReservationsNotAList?)
  {
    var ids := env.call(ListingIds);
    if ids.Value? && Item0(ids.value).Value? {
      var id := Str(Item0(ids.value).value);
      NotAListHandlersNeverRun(env, id);
      var detail := ReservationDetail(env, id);
      if detail.Value? {
        DetailVerdicts(env, id);
      }
    }
  }

  /** What the reservation lookup prints when it completes: one verdict, never about a list. */
  lemma DetailVerdicts(env: Env, listingId: string)
    requires ReservationDetail(env, listingId).Value?
    ensures exists c: Context :: !c.ReservationsNotAList? && OnlyVerdictsOn(ReservationDetail(env, listingId).value, c)
  {
    var reservations := env.call(ReservationsByListingId(listingId, None)).value;
    if Len(reservations).value == 0 {
      assert OnlyVerdictsOn(ReservationDetail(env, listingId).value, NoReservations);
    } else {
      var rid := Str(Lookup(Item0(reservations).value, "id").value);
      var reservation := env.call(ReservationById(rid)).value;
      ReportVerdictIsItsContext(ReservationOk(rid), env.check(ReservationSchema, reservation));
    }
  }

  // ---------------------------------------------------------------------------
  // The run

  /** `run` calls thirteen scenarios: the account, listing-id and first listing scenarios first, in this order, ... */
  lemma RunCallsAccountScenariosFirst(env: Env)
    ensures |Outcomes(env)| == 13
    ensures Outcomes(env)[0] == ValidateAccountReturns200(env)
    ensures Outcomes(env)[1] == ValidateAccountReturns401(env)
    ensures Outcomes(env)[2] == ValidateListingIdsReturns200(env)
  {
    ScenarioAt(env, 0, ValidateAccountReturns200);
    ScenarioAt(env, 1, ValidateAccountReturns401);
    ScenarioAt(env, 2, ValidateListingIdsReturns200);
  }

  /** ... then the listing and calendar scenarios, ... */
  lemma RunCallsListingAndCalendarScenariosNext(env: Env)
    ensures |Outcomes(env)| == 13
    ensures Outcomes(env)[3] == ValidateListingReturns200(env)
    ensures Outcomes(env)[4] == ValidateListingReturns404(env)
    ensures Outcomes(env)[5] == ValidateCalendarReturns200(env)
    ensures Outcomes(env)[6] == ValidateCalendarReturns404(env)
  {
    ScenarioAt(env, 3, ValidateListingReturns200);
    ScenarioAt(env, 4, ValidateListingReturns404);
    ScenarioAt(env, 5, ValidateCalendarReturns200);
    ScenarioAt(env, 6, ValidateCalendarReturns404);
  }

  /** ... then the reservation and rate scenarios, in this order. */
  lemma RunCallsReservationAndRateScenariosLast(env: Env)
    ensures |Outcomes(env)| == 13
    ensures Outcomes(env)[7] == ValidateReservationsReturn200(env)
    ensures Outcomes(env)[8] == ValidateReservationsReturn404(env)
    ensures Outcomes(env)[9] == ValidateReservationReturns200(env)
    ensures Outcomes(env)[10] == ValidateReservationReturns404(env)
    ensures Outcomes(env)[11] == ValidatePostPricesReturns201(env)
    ensures Outcomes(env)[12] == ValidatePostPricesReturns404(env)
  {
    ScenarioAt(env, 7, ValidateReservationsReturn200);
    ScenarioAt(env, 8, ValidateReservationsReturn404);
    ScenarioAt(env, 9, ValidateReservationReturns200);
    ScenarioAt(env, 10, ValidateReservationReturns404);
    ScenarioAt(env, 11, ValidatePostPricesReturns201);
    ScenarioAt(env, 12, ValidatePostPricesReturns404);
  }

  /** The `i`-th outcome of the run is the `i`-th scenario's. */
  lemma ScenarioAt(env: Env, i: nat, scenario: Env -> Outcome<seq<Line>>)
    requires i < |Scenarios| && Scenarios[i] == scenario
    ensures |Outcomes(env)| == 13 && Outcomes(env)[i] == scenario(env)
  {
  }

  /**
   A server that answers every request with a code other than 200, 201 or 404 ends the
   run in its first scenario: nothing is printed, and the account read's fault escapes.
   The negative scenarios are never reached.
   */
  lemma ErrorStatusEndsRunAtFirstScenario(baseUrl: string, apiKey: string, transport: Transport,
                                          check: SchemaChecker, today: Dates.CalendarDate, status: int)
    requires status !in {200, 201, 404}
    requires AnswersEvery(transport, status)
    ensures Run(baseUrl, apiKey, transport, check, today) == Transcript([], Some(CheckStatus(status).fault))
  {
    var client := Config(apiKey, baseUrl);
    var env := Connect(client, transport, check, today);
    assert transport(BuildRequest(client, AccountInformation).value).Delivered?;
    assert env.call(AccountInformation) == Raised(CheckStatus(status).fault);
    RunCallsAccountScenariosFirst(env);
    RunStopsAtFirstFault(Outcomes(env), 0);
    assert Outcomes(env)[..0] == [];
  }

  /** Running `a` then `b` is running `a`, then `b` only if `a` let nothing escape. */
  lemma {:induction false} RunAllConcat(a: seq<Outcome<seq<Line>>>, b: seq<Outcome<seq<Line>>>)
    ensures RunAll(a + b) == if RunAll(a).uncaught.Some? then RunAll(a)
                             else Transcript(RunAll(a).lines + RunAll(b).lines, RunAll(b).uncaught)
  {
    if |a| == 0 {
      assert a + b == b;
    } else {
      assert (a + b)[0] == a[0];
      assert (a + b)[1..] == a[1..] + b;
      RunAllConcat(a[1..], b);
    }
  }

  /** The first scenario to raise ends the run with that exception after the lines before it. */
  lemma RunStopsAtFirstFault(outcomes: seq<Outcome<seq<Line>>>, k: nat)
    requires k < |outcomes|
    requires forall i :: 0 <= i < k ==> outcomes[i].Value?
    requires outcomes[k].Raised?
    ensures RunAll(outcomes) == Transcript(RunAll(outcomes[..k]).lines, Some(outcomes[k].fault))
  {
    assert outcomes == outcomes[..k] + outcomes[k..];
    RunAllConcat(outcomes[..k], outcomes[k..]);
  }
}

=== FILE: validator.dfy ===
/**
 The scenario validator (validator.py): thirteen scripted scenarios, each calling the
 client and turning what comes back into report lines, and `run`, which executes them in
 a fixed order. A scenario either prints its lines or lets an exception escape; an
 escaping exception ends the whole run, since nothing in `run` catches it.
 */
module Validator {
  import opened Wrappers
  import opened Exceptions
  import opened Json
  import opened Dates
  import opened Client
  import opened Report

  /**
   What the scenarios work with: the client's methods bound to the configured key and
   base URL, the same methods bound to the deliberately invalid key of the 401 scenario,
   the schema evaluator, and today's date.
   */
  datatype Env = Env(
    call: Endpoint -> Outcome<Json>,
    callWithInvalidKey: Endpoint -> Outcome<Json>,
    check: SchemaChecker,
    today: CalendarDate)

  const InvalidApiKey := "invalid-api-key"
  const InvalidId := "invalid-id"

  /** The client of the 401 scenario: a deliberately wrong key, the same base URL. */
  function InvalidClient(client: Config): Config {
    Config(InvalidApiKey, client.baseUrl)
  }

  /** The scenarios' view of a client talking to a server through `transport`. */
  function Connect(client: Config, transport: Transport, check: SchemaChecker, today: CalendarDate): Env {
    Env(ep => Call(client, ep, transport), ep => Call(InvalidClient(client), ep, transport), check, today)
  }

  // ---------------------------------------------------------------------------
  // The rate batch of the 201 scenario

  datatype ExtraGuests = ExtraGuests(count: int, fee: int)

  datatype Rate = Rate(
    date: CalendarDate,
    dailyPrice: int,
    minNights: int,
    checkinDays: seq<string>,
    checkoutDays: seq<string>,
    extra: Option<ExtraGuests>)

  function Days(names: seq<string>): Json {
    JArr(seq(|names|, i requires 0 <= i < |names| => JStr(names[i])))
  }

  /** A rate as the JSON object posted; the extra-guest keys appear only when present. */
  function RateJson(r: Rate): Json {
    var base := [
      Member("date", JStr(IsoFormat(r.date))),
      Member("dailyPrice", JNum(r.dailyPrice)),
      Member("minNights", JNum(r.minNights)),
      Member("checkinDays", Days(r.checkinDays)),
      Member("checkoutDays", Days(r.checkoutDays))
    ];
    match r.extra
    case None => JObj(base)
    case Some(e) => JObj(base + [Member("extraGuests", JNum(e.count)), Member("extraGuestFee", JNum(e.fee))])
  }

  function RatesJson(rates: seq<Rate>): seq<Json> {
    seq(|rates|, i requires 0 <= i < |rates| => RateJson(rates[i]))
  }

  /**
   `dummy_rates`: three entries for the three days after today, only the last with
   extra-guest pricing. Adding the days raises OverflowError near `date.max`.
   */
  function DummyRates(today: CalendarDate): (r: Outcome<seq<Rate>>)
    ensures r.Value? <==> Ordinal(today) + 3 <= Ordinal(MaxDate)
    ensures r.Raised? ==> r.fault == OverflowFault
    ensures r.Value? ==> |r.value| == 3
    ensures r.Value? ==> forall i :: 0 <= i < |r.value| ==> Ordinal(r.value[i].date) == Ordinal(today) + i + 1
    ensures r.Value? ==> forall i :: 0 <= i < |r.value| ==> (r.value[i].extra.Some? <==> i == 2)
  {
    var day1 :- AddDays(today, 1);
    var day2 :- AddDays(today, 2);
    var day3 :- AddDays(today, 3);
    Value(RatesFor(day1, day2, day3))
  }

  /** The three fixed rate entries, dated in the order given. */
  function RatesFor(day1: CalendarDate, day2: CalendarDate, day3: CalendarDate): (r: seq<Rate>)
    ensures |r| == 3 && r[0].date == day1 && r[1].date == day2 && r[2].date == day3
    ensures forall i :: 0 <= i < |r| ==> (r[i].extra.Some? <==> i == 2)
  {
    [
      Rate(day1, 296, 3, ["saturday"], ["saturday"], None),
      Rate(day2, 296, 3, ["saturday", "friday"], ["saturday"], None),
      Rate(day3, 433, 2, ["saturday"], ["saturday"], Some(ExtraGuests(2, 156)))
    ]
  }

  /** The posted object carries the ISO date, and the extra-guest keys exactly when the rate has them. */
  lemma RateJsonKeys(r: Rate)
    ensures Lookup(RateJson(r), "date") == Value(JStr(IsoFormat(r.date)))
    ensures Lookup(RateJson(r), "extraGuests").Value? <==> r.extra.Some?
    ensures Lookup(RateJson(r), "extraGuestFee").Value? <==> r.extra.Some?
  {
    var members := RateJson(r).members;
    assert members[0].key == "date";
    if r.extra.Some? {
      assert members[5].key == "extraGuests";
      assert members[6].key == "extraGuestFee";
    } else {
      assert forall k :: 0 <= k < |members| ==> members[k].key != "extraGuests" && members[k].key != "extraGuestFee";
    }
  }

  // ---------------------------------------------------------------------------
  // The scenarios

  /**
   The body of every negative scenario: call, and print pass if the expected fault was
   raised, fail for any other exception, nothing if the call returned normally.
   */
  function ExpectFault(o: Outcome<Json>, expected: Fault, pass: Context, fail: Context): (r: Outcome<seq<Line>>)
    ensures r.Value?
    ensures r.value == [Verdict(true, pass)] <==> o == Raised(expected)
    ensures r.value == [Verdict(false, fail)] <==> o.Raised? && o.fault != expected
    ensures r.value == [] <==> o.Value?
  {
    match o
    case Value(_) => Value([])
    case Raised(f) => if f == expected then Value([Verdict(true, pass)]) else Value([Verdict(false, fail)])
  }

  /**
   What a positive scenario makes of the call `o` it reports on: the call's fault escapes,
   and its payload is checked against `schema` and reported under `context`.
   */
  predicate ReportsOn(r: Outcome<seq<Line>>, o: Outcome<Json>, context: Context, schema: Schema, check: SchemaChecker) {
    && (o.Raised? ==> r == Raised(o.fault))
    && (o.Value? ==> r == Value(LogReport(context, check(schema, o.value))))
  }

  function ValidateAccountReturns200(env: Env): Outcome<seq<Line>> {
    var account :- env.call(AccountInformation);
    Value(LogReport(AccountOk, env.check(AccountSchema, account)))
  }

  /** Pass only for InvalidCredentials; any other exception is echoed, then fails. */
  function ValidateAccountReturns401(env: Env): (r: Outcome<seq<Line>>)
    ensures r.Value?
    ensures r.value == [Verdict(true, AccountUnauthorized)]
        <==> env.callWithInvalidKey(AccountInformation) == Raised(InvalidCredentials)
    ensures Verdict(false, AccountUnauthorized) in r.value
        ==> exists f :: f != InvalidCredentials && r.value == [Echo(f), Verdict(false, AccountUnauthorized)]
    ensures var o := env.callWithInvalidKey(AccountInformation);
      o.Raised? && o.fault != InvalidCredentials ==> r.value == [Echo(o.fault), Verdict(false, AccountUnauthorized)]
    ensures env.callWithInvalidKey(AccountInformation).Value? <==> r.value == []
  {
    match env.callWithInvalidKey(AccountInformation)
    case Value(_) => Value([])
    case Raised(f) =>
      if f == InvalidCredentials then Value([Verdict(true, AccountUnauthorized)])
      else Value([Echo(f), Verdict(false, AccountUnauthorized)])
  }

  function ValidateListingIdsReturns200(env: Env): Outcome<seq<Line>> {
    var ids :- env.call(ListingIds);
    Value(LogReport(ListingIdsOk, env.check(ListingIdsSchema, ids)))
  }

  /** The first listing id is taken outside any `try`. */
  function ValidateListingReturns200(env: Env): Outcome<seq<Line>> {
    var ids :- env.call(ListingIds);
    var first :- Item0(ids);
    var listing :- env.call(ListingById(Str(first)));
    Value(LogReport(ListingOk(Str(first)), env.check(ListingSchema, listing)))
  }

  function ValidateListingReturns404(env: Env): Outcome<seq<Line>> {
    ExpectFault(env.call(ListingById(InvalidId)), PropertyNotFound, ListingMissing, ListingMissing)
  }

  /**
   Only a StatusCodeException is caught around the calendar read. Its handler reads
   `e.status_code`, which the exception class never sets, so it raises AttributeError
   while building its line.
   */
  function ValidateCalendarReturns200(env: Env): Outcome<seq<Line>> {
    var ids :- env.call(ListingIds);
    var first :- Item0(ids);
    var id := Str(first);
    match env.call(CalendarByListingId(id))
    case Raised(StatusCodeException) => Raised(AttributeFault)
    case Raised(f) => Raised(f)
    case Value(calendar) => Value(LogReport(CalendarOk(id), env.check(CalendarSchema, calendar)))
  }

  function ValidateCalendarReturns404(env: Env): Outcome<seq<Line>> {
    ExpectFault(env.call(CalendarByListingId(InvalidId)), PropertyNotFound, CalendarMissing, CalendarMissing)
  }

  /**
   A fault raised in the reservation scenarios' `try` before `listing_id` is assigned:
   the IndexError and InvalidCredentials handlers both read `listing_id`, so they raise
   UnboundLocalError instead of printing; other faults are not caught.
   */
  function CaughtBeforeBinding(f: Fault): (r: Outcome<seq<Line>>)
    ensures r.Raised?
    ensures r.fault !in {IndexFault, InvalidCredentials}
    ensures r.fault == f || r.fault == UnboundLocalFault
    ensures f !in {IndexFault, InvalidCredentials} <==> r.fault == f
  {
    if f == IndexFault || f == InvalidCredentials then Raised(UnboundLocalFault) else Raised(f)
  }

  function ValidateReservationsReturn200(env: Env): Outcome<seq<Line>> {
    var ids :- env.call(ListingIds);
    match Item0(ids)
    case Raised(f) => CaughtBeforeBinding(f)
    case Value(first) =>
      var id := Str(first);
      match env.call(ReservationsByListingId(id, None))
      case Raised(IndexFault) => Value([Verdict(false, ReservationsNotAList(id))])
      case Raised(InvalidCredentials) => Value([Verdict(false, ReservationsUnauthorized(id))])
      case Raised(f) => Raised(f)
      case Value(list) => Value(LogReport(ReservationsOk(id), env.check(ReservationListSchema, list)))
  }

  function ValidateReservationsReturn404(env: Env): Outcome<seq<Line>> {
    ExpectFault(env.call(ReservationsByListingId(InvalidId, None)), PropertyNotFound,
                ReservationsMissing, ReservationsMissing)
  }

  /** The part of the reservation-detail `try` after `listing_id` is bound. */
  function ReservationDetail(env: Env, listingId: string): Outcome<seq<Line>> {
    var reservations :- env.call(ReservationsByListingId(listingId, None));
    var count :- Len(reservations);
    if count == 0 then Value([Verdict(false, NoReservations)])
    else
      var first :- Item0(reservations);
      var reservationId :- Lookup(first, "id");
      var reservation :- env.call(ReservationById(Str(reservationId)));
      Value(LogReport(ReservationOk(Str(reservationId)), env.check(ReservationSchema, reservation)))
  }

  function ValidateReservationReturns200(env: Env): Outcome<seq<Line>> {
    var ids :- env.call(ListingIds);
    match Item0(ids)
    case Raised(f) => CaughtBeforeBinding(f)
    case Value(first) =>
      var id := Str(first);
      match ReservationDetail(env, id)
      case Raised(IndexFault) => Value([Verdict(false, ReservationsNotAList(id))])
      case Raised(InvalidCredentials) => Value([Verdict(false, ReservationListRefused(id))])
      case Raised(f) => Raised(f)
      case Value(lines) => Value(lines)
  }

  function ValidateReservationReturns404(env: Env): Outcome<seq<Line>> {
    ExpectFault(env.call(ReservationById(InvalidId)), ReservationNotFound,
                ReservationMissing, ReservationMissingUnchecked)
  }

  /** The listing id and the rate batch are computed outside any `try`. */
  function ValidatePostPricesReturns201(env: Env): Outcome<seq<Line>> {
    var ids :- env.call(ListingIds);
    var first :- Item0(ids);
    var rates :- DummyRates(env.today);
    var posted :- env.call(PostRates(Str(first), RatesJson(rates)));
    Value(LogReport(RatesPosted(Str(first)), env.check(CalendarSchema, posted)))
  }

  function ValidatePostPricesReturns404(env: Env): Outcome<seq<Line>> {
    ExpectFault(env.call(PostRates(InvalidId, [])), PropertyNotFound, RatesMissing, RatesMissing)
  }

  // ---------------------------------------------------------------------------
  // The run

  /** Everything printed, and the exception that ended the run early, if one did. */
  datatype Transcript = Transcript(lines: seq<Line>, uncaught: Option<Fault>)

  /**
   Scenarios run one after another, each producing its outcome; the first exception
   that escapes one ends the run, and nothing after it is printed.
   */
  function RunAll(outcomes: seq<Outcome<seq<Line>>>): (t: Transcript)
    ensures t.uncaught.None? <==> forall i :: 0 <= i < |outcomes| ==> outcomes[i].Value?
    ensures t.uncaught.Some? ==> exists i :: 0 <= i < |outcomes| && outcomes[i] == Raised(t.uncaught.value)
  {
    if |outcomes| == 0 then Transcript([], None)
    else
      match outcomes[0]
      case Raised(f) => Transcript([], Some(f))
      case Value(lines) =>
        var rest := RunAll(outcomes[1..]);
        assert forall i :: 1 <= i < |outcomes| ==> outcomes[i] == outcomes[1..][i - 1];
        assert rest.uncaught.Some? ==> exists i :: 1 <= i < |outcomes| && outcomes[i] == Raised(rest.uncaught.value);
        Transcript(lines + rest.lines, rest.uncaught)
  }

  /** The scenarios in the order in which `run` calls them. */
  const Scenarios: seq<Env -> Outcome<seq<Line>>> := [
    ValidateAccountReturns200, ValidateAccountReturns401, ValidateListingIdsReturns200,
    ValidateListingReturns200, ValidateListingReturns404, ValidateCalendarReturns200,
    ValidateCalendarReturns404, ValidateReservationsReturn200, ValidateReservationsReturn404,
    ValidateReservationReturns200, ValidateReservationReturns404, ValidatePostPricesReturns201,
    ValidatePostPricesReturns404
  ]

  /** The outcome of every scenario, in run order. */
  function Outcomes(env: Env): seq<Outcome<seq<Line>>> {
    seq(|Scenarios|, i requires 0 <= i < |Scenarios| => Scenarios[i](env))
  }

  /** `run(base_url, api_key)`: one client for the key and base URL, then every scenario in order. */
  function Run(baseUrl: string, apiKey: string, transport: Transport, check: SchemaChecker, today: CalendarDate): (t: Transcript)
    ensures var env := Connect(Config(apiKey, baseUrl), transport, check, today);
      && (t.uncaught.None? <==> forall i :: 0 <= i < |Outcomes(env)| ==> Outcomes(env)[i].Value?)
      && (t.uncaught.Some? ==> exists i :: 0 <= i < |Outcomes(env)| && Outcomes(env)[i] == Raised(t.uncaught.value))
  {
    RunAll(Outcomes(Connect(Config(apiKey, baseUrl), transport, check, today)))
  }
}

=== FILE: wrappers.dfy ===
/** Optional values: Python's `None` versus a present value. */
module Wrappers {

  datatype Option<+T> = None | Some(value: T)
}
